=== FILE: README.md ===
# A Dafny model of `setup_tree.py`

`bin/setup_tree.py` sets up the SDSS `tree` product for one configuration,
and this project models the two pure parts of that work:

1. **The environment files.** The script writes one file for a shell
   dialect (`bash`, `tsch` or environment `modules`). It holds a header
   (`write_header`), then for every section of the tree environment except
   `default` a comment separator and one line per variable (`write_file`).
   When the configuration is the current one it also writes a modules
   `.version` marker (`write_version`).
2. **The `env` link directory.** For every variable, the script creates or
   refreshes a symbolic link `<sas_root>/env/<NAME>` to the variable's
   path, or removes a stale one, according to per-variable rules
   (`create_index_table` with `make_symlink` and `_remove_link`). It then
   publishes an `index.html` page whose table lists the links that resolve
   (`create_index_page`, and `create_env` for the site choice).

The files are returned as values rather than written. The filesystem is an
abstract value: a map from link path to the path it names, and a map from
every real file or directory to its modification stamp.

Modules:

- `Wrappers`: `Option` and `Result`.
- `Text`: the Python string and path operations the script uses. These are
  `str.strip`, `str.rstrip('/')`, ASCII `str.upper`, substring `in` and
  `os.path.join`.
- `Environment`: the ordered environment, plus `Items`, the order in which
  both loops of the script visit variables.
- `ShellFile`: `write_header`, `write_version` and `write_file`.
- `ShellReading`: a reader for `export NAME=value` and `setenv NAME value`
  lines, where `NAME` must be a shell identifier (ASCII letters, digits and
  `_`, not starting with a digit), as bash and tcsh require. It serves as
  the partner of the writer: the round-trip lemmas state what a shell finds
  in a written file, for values a shell takes as one literal word, read
  before `$` expansion.
- `Symlinks`: the filesystem, `_remove_link`, `make_symlink` and the link
  pass of `create_index_table` as a fold.
- `IndexPage`: the table, the page and `create_env`.

Two things about the link loop follow from the code itself:

- The `_root` test at line 74 runs before any section test, so a name
  containing `_root` is skipped in every section, not only in `general`.
- `cas_load` and `staging_data` in `general` are in effect treated like
  every other variable. Line 83 has already called `os.stat(src)`
  successfully by the time line 97 asks `os.path.exists(src)`, and both
  resolve the same path, so the `else` branch at line 99 is unreachable.
  `Symlinks.Step`'s contract, that every processed variable gets its link,
  covers these two names too.

## Model

| member | source | states |
|---|---|---|
| Text.Strip | bin/setup_tree.py:263 | `hdr.strip()` cuts a whitespace-only prefix and suffix (Python's `isspace` set) and leaves a result that neither starts nor ends with whitespace |
| Text.StripTemplate | bin/setup_tree.py:263 | stripping a template whose first and last characters are not whitespace, padded with whitespace, gives back exactly the joined template lines |
| Text.RStripChar | bin/setup_tree.py:233 | `rstrip('/')` keeps a prefix, removes only `/` characters, and leaves no trailing `/` |
| Text.Upper | bin/setup_tree.py:312 | upper-casing keeps the length and maps each character on its own (ASCII letters only) |
| Text.Join | bin/setup_tree.py:303 | `os.path.join`: an absolute second part replaces the first; otherwise the result is the first part, a `/` exactly when the first part is non-empty and does not already end in `/`, then the second part |
| Text.JoinInjective | bin/setup_tree.py:79 | two relative names joined onto one directory give the same path exactly when they are the same name, so distinct upper-cased names get distinct links |
| Text.ContainsIff | bin/setup_tree.py:74 | the substring test `'_root' in tree_name` holds exactly when the pattern occurs at some position |
| Environment.Items | bin/setup_tree.py:306-307 | no visited variable belongs to the `default` entry |
| Environment.ItemsMembership | bin/setup_tree.py:68-72 | a variable is visited exactly when it sits in a section not named `default` |
| Environment.ItemsAppend | bin/setup_tree.py:306-312 | sections are visited in stored order, each with its variables in stored order |
| ShellFile.ParseTerm | bin/setup_tree.py:231 | exactly `bash`, `tsch` and `modules` are accepted; every other term is refused |
| ShellFile.ProductDir | bin/setup_tree.py:233 | the product directory is the tree directory without its trailing slashes, and it does not end in `/` |
| ShellFile.WriteHeader | bin/setup_tree.py:216-263 | the header (bash/tsch lines corrected) is the template lines joined by newlines, non-empty, with no leading or trailing whitespace |
| ShellFile.WriteHeaderAsWritten | bin/setup_tree.py:216-263 | the header exactly as the code fills it in is the template lines joined by newlines, with no leading or trailing whitespace |
| ShellFile.BodyAppend | bin/setup_tree.py:306-312 | the body of two section lists in a row is their two bodies in a row |
| ShellFile.BodySkipsDefault | bin/setup_tree.py:307 | a `default` entry contributes nothing to the body, wherever it sits |
| ShellFile.WriteFile | bin/setup_tree.py:272-319 | the file is `<name><ext>` in the output directory and holds the header exactly as `write_header` returns it (line 292), a newline, and the body; the `.version` marker exists iff the term is `modules` and the configuration is current, and holds `write_version(name)` |
| ShellFile.WriteFileCorrected | bin/setup_tree.py:272-319 | the same file with the corrected bash/tsch header: same path, same body, same `.version` marker |
| ShellFile.WriteVersion | bin/setup_tree.py:266-269 | the marker is the two lines `#%Module1.0` and `set ModulesVersion <name>` |
| ShellReading.AssignLineRead | bin/setup_tree.py:297-300 | a variable line in either syntax is one line and reads back as exactly the binding it was written for |
| ShellReading.BodyRead | bin/setup_tree.py:304-312 | the body reads back as every visited variable, upper-cased and bound to its path, in visiting order; nothing is filtered by name |
| ShellReading.ShellHeaderRead | bin/setup_tree.py:236-242 | the corrected bash/tsch header sets `TREE_DIR` to the product directory, `TREE_VER` to the configuration name, and prepends the tree's `bin` and `python` directories to `PATH` and `PYTHONPATH` |
| ShellReading.SearchPathsWords | bin/setup_tree.py:240-241 | the `PATH` and `PYTHONPATH` values of the header are each one word a shell takes literally, but for their `$` references |
| ShellReading.ShellHeaderOneLine | bin/setup_tree.py:236-242 | no line of the corrected bash/tsch header holds a newline when the directory and name hold none, so each header line is read on its own |
| ShellReading.BashFileRead | bin/setup_tree.py:290-312 | a whole bash file as `write_file` writes it reads back as every visited variable, upper-cased, in order, and nothing from the header |
| ShellReading.TschFileRead | bin/setup_tree.py:290-312 | a whole tsch file as `write_file` writes it reads back as the header's four variables, with `TREE_VER` set to `tsch`, followed by every visited variable, upper-cased, in order |
| ShellReading.CorrectedFileRead | bin/setup_tree.py:233-312 | a whole bash or tsch file with the corrected header reads back as `TREE_DIR`, `TREE_VER` (the configuration name), `PATH` and `PYTHONPATH`, followed by every visited variable, upper-cased, in order |
| ShellReading.BashHeaderAsWrittenBindsNothing | bin/setup_tree.py:237-242 | the bash template as written (`export NAME value`) assigns no variable |
| ShellReading.BashHeaderTextAsWritten | bin/setup_tree.py:233-263 | the bash header `write_header` returns, then a newline, assigns no variable |
| ShellReading.TschHeaderAsWrittenVersion | bin/setup_tree.py:237-242 | the tsch template as written sets `TREE_VER` to `tsch` |
| ShellReading.TschHeaderTextAsWritten | bin/setup_tree.py:233-263 | the tsch header `write_header` returns sets `TREE_VER` to `tsch`, whatever the configuration is called |
| Symlinks.Resolve | bin/setup_tree.py:83-106 | the path resolution behind `os.stat` and `os.path.exists`: a real path resolves to itself, a path that is neither real nor a link resolves to nothing, and whatever it resolves to is real |
| Symlinks.LinkExists | bin/setup_tree.py:106 | a link leads wherever the path it names leads, with one link fewer left to follow, so `os.path.exists(link)` holds exactly when that path resolves |
| Symlinks.ExistsThroughLink | bin/setup_tree.py:83-106 | a link to a real file or directory exists, and `os.stat` through it gives that target's stamp |
| Symlinks.DanglingLink | bin/setup_tree.py:83-106 | a link naming a path that is neither real nor a link does not exist, and `os.stat` through it fails |
| Symlinks.Stat | bin/setup_tree.py:83 | `os.stat` succeeds exactly when the path resolves within 40 links, and then gives the stamp of what it resolves to |
| Symlinks.RemoveLink | bin/setup_tree.py:20-28 | afterwards there is no link at the path; every other link and every real path is untouched |
| Symlinks.MakeSymlink | bin/setup_tree.py:31-41 | fails exactly when a real file or directory occupies the link path, and the failure keeps the filesystem with any old link there already removed; otherwise leaves exactly `link -> src`, whatever was there, and touches nothing else |
| Symlinks.Step | bin/setup_tree.py:72-107 | one variable: a name containing `_root` changes nothing; otherwise a path that cannot be stat-ed loses its link, a `general` name containing `sas_base_dir` changes nothing, and any other variable gets `link -> path` (failing when a real file sits at the link path); a row (upper-cased name, target stamp) appears iff the link resolves afterwards; real paths never change |
| Symlinks.Traverse | bin/setup_tree.py:68-107 | the pass never changes a real path and makes at most one row per variable; the first refused link stops it, naming one of the variables' link paths, and the filesystem it carries (as the earlier variables left it) has the same real paths |
| Symlinks.TraverseFrame | bin/setup_tree.py:68-107 | the pass, whether it finishes or is stopped by a refused link, changes no real path and no link outside the variables' own link paths |
| Symlinks.TraverseAppend | bin/setup_tree.py:68-107 | the pass over two lists in a row is the pass over the first, continued over the second from the filesystem it left; the rows are concatenated |
| Symlinks.TraverseValid | bin/setup_tree.py:95-103 | no path ever becomes both a link and a real file, in a finished or a stopped pass |
| Symlinks.TraverseRows | bin/setup_tree.py:68-107 | for plain variables (no variable's path is a link or any variable's link path, and no real file or directory sits at a variable's link path), the rows are exactly those of the variables whose path exists, minus the `_root` names and the `general` `sas_base_dir` names, in visiting order |
| Symlinks.StepEffect | bin/setup_tree.py:72-103 | when the variable's path is not a link and no real file sits at its link path, one step succeeds and its only change is the variable's effect: nothing for a `_root` name or a `general` `sas_base_dir` name with an existing path, removal of the link for a missing path, `link -> path` otherwise |
| Symlinks.TraverseEffect | bin/setup_tree.py:68-107 | with plain variables the pass succeeds and the links it leaves are the variables' effects applied in visiting order |
| Symlinks.ApplyTwice | bin/setup_tree.py:68-107 | applying the variables' effects a second time changes no link: each link path ends as the last variable that affects it leaves it |
| Symlinks.TraverseRerun | bin/setup_tree.py:68-107 | under the same conditions, running the pass again over the filesystem it left leaves that filesystem unchanged and makes the same rows |
| IndexPage.CreateIndexTable | bin/setup_tree.py:44-110 | `create_index_table` fails exactly when its link pass is refused, with that refusal, and otherwise leaves the pass's filesystem; its text is stated by `IndexPage.IndexTablePlain` |
| IndexPage.CreateIndexPage | bin/setup_tree.py:113-153 | `create_index_page` fails exactly when the table's link pass is refused, with that refusal, and otherwise leaves the pass's filesystem; its text is stated by `IndexPage.IndexPagePlain` |
| IndexPage.RowsTextAppend | bin/setup_tree.py:105-107 | row lines are appended in the order the rows are made |
| IndexPage.IndexTablePlain | bin/setup_tree.py:56-110 | with plain variables the table is the fixed header (ending with the parent-directory row), one line per expected row, and the fixed footer |
| IndexPage.IndexPagePlain | bin/setup_tree.py:148-153 | with plain variables the page is the filled-in header, that table, and the filled-in footer |
| IndexPage.SiteFor | bin/setup_tree.py:172-173 | with `mirror` set the site is `https://data.mirror.sdss.org` and the archive mirror (SAM); otherwise it is `https://data.sdss.org` and the archive server (SAS); each mirror value appears exactly when `mirror` is set |
| IndexPage.FindSection | bin/setup_tree.py:175 | `environ['general']`: the section found has the name asked for, and nothing is found exactly when no section has that name |
| IndexPage.FindVar | bin/setup_tree.py:175 | `[...]['sas_root']`: the path found belongs to a variable of that name, and nothing is found exactly when no variable has that name |
| IndexPage.SasRoot | bin/setup_tree.py:175 | the archive root is a `sas_root` variable of a `general` section; the `KeyError` names `general` exactly when no section is called so, and names `sas_root` exactly when the first `general` section has no such variable |
| IndexPage.CreateEnv | bin/setup_tree.py:156-196 | a missing key fails; a missing archive root, or an `env` directory that is not writable, returns without links or page; a refused link fails with the refusal of the page's link pass, and no other failure is possible once the key lookups succeed; otherwise, exactly when that pass finishes, `index.html` in `<sas_root>/env` holds the page made for the chosen site, after the link pass |
| IndexPage.Publish | bin/setup_tree.py:190-196 | the page is published at `<envdir>/index.html` exactly when its link pass finishes; a refused link is reported as such |
| IndexPage.CreateEnvFrame | bin/setup_tree.py:156-196 | whatever the outcome, the filesystem `create_env` leaves (also after a refused link) has the same real paths and differs only at the variables' link paths in `<sas_root>/env` |

## Findings

| source | as written | input that shows it | evidently intended | confidence | as-written member | corrected member |
|---|---|---|---|---|---|---|
| bin/setup_tree.py:238-241 | the bash header lines are `export TREE_DIR <dir>`, `export PATH $TREE_DIR/bin:$PATH` and so on: a space where bash needs `=` | any `bash` configuration, e.g. tree directory `/opt/tree`: the line `export TREE_DIR /opt/tree` assigns nothing | `export TREE_DIR=<dir>` and likewise for `TREE_VER`, `PATH` and `PYTHONPATH`, as `write_file` writes its own bash lines | high (not executed) | ShellReading.BashHeaderAsWrittenBindsNothing | ShellReading.ShellHeaderRead |
| bin/setup_tree.py:239-242 | `TREE_VER {1}` with `.format(name, term, base, product_dir)`, so position 1 is the shell name | any tsch configuration named `dr17`: the filled-in line is `setenv TREE_VER tsch`, so `TREE_VER` is set to `tsch`; the bash line `export TREE_VER bash` names the shell too (and, by the first row, binds nothing) | `TREE_VER` is the configuration name, as the modules header sets it through `$version` | high (not executed) | ShellReading.TschHeaderAsWrittenVersion | ShellReading.ShellHeaderRead |

`ShellFile.WriteHeaderAsWritten` and `ShellFile.ShellHeaderLinesAsWritten`
model the code as written, and `ShellFile.WriteFile` writes that header.
`ShellReading.BashHeaderTextAsWritten` and
`ShellReading.TschHeaderTextAsWritten` carry both findings over to the whole
header text that `write_header` returns. `ShellReading.BashFileRead` and
`ShellReading.TschFileRead` carry them over to the whole file that
`write_file` writes. `ShellFile.WriteHeader` with `ShellFile.ShellHeaderLines`
is the corrected header. `ShellFile.WriteFileCorrected` writes it, and
`ShellReading.CorrectedFileRead` states what a shell reads from that file.

## Left out

- Writing files, `os.makedirs` and printing: each writer returns its file instead.
- `os.access(envdir, os.W_OK)`: `CreateEnv` takes the answer as its `writable` parameter.
- `os.makedirs(envdir)`: the `env` directory is assumed to exist once the archive root does.
- `time.strftime(time.localtime(...))`: the stamp of each real path is a given string; clock, time zone and locale are outside the model.
- `parse_args`, `main`, `get_tree`, `check_sas_base_dir` and `copy_modules`: argument parsing, the external configuration loader, interactive prompts and file copying.
- `environ['default']` missing, or without `name` or `current`: `Env` always carries these defaults.
- Section names are assumed unique, as keys of a mapping are. Lookups take the first match, and the visiting loops visit every entry.
- Text.Upper: only ASCII letters are upper-cased, because Python's full Unicode case mapping is outside the model.
- ShellReading: values are taken as written. Variables such as `$TREE_DIR` are not expanded.
- ShellReading.BodyRead: requires every visited name to be a shell identifier and every path to be a word a shell takes literally: no space, no control character such as a tab or newline, none of ``" ' ` \ ; & | < > ( ) { } [ ] * ? ~ !``, and no leading `#`. For other names or paths the code still writes a line, which the shell rejects, splits, runs as a further command or expands, and the model claims nothing about such a file. The same holds for `ShellReading.BashFileRead`, `ShellReading.TschFileRead` and `ShellReading.CorrectedFileRead`.
- ShellReading.CorrectedFileRead: covers bash and tsch files only, because the modules header is Tcl and is not read back. `ShellFile.WriteFile` and `ShellFile.WriteHeader` still state the modules file's name, layout and `.version` marker. The same holds for `ShellReading.BashFileRead` and `ShellReading.TschFileRead`.
- ShellReading.BashFileRead: assumes the tree directory holds no `=`. With one, the as-written line `export TREE_DIR a=b` does bind `a`, and the lemma does not describe that binding.
- Symlinks.TraverseEffect: describes the links only for plain variables: no variable's path is a link or any variable's link path, and no real file or directory sits at a variable's link path. Where a real path sits at a link path the pass is refused instead. `Symlinks.TraverseFrame` and `Symlinks.TraverseValid` hold without that condition.
- Symlinks.TraverseRows: holds only for plain variables. A variable whose path is itself a symbolic link, common for archive data directories, is outside it.
- Symlinks.TraverseRerun: holds only for plain variables, for the same reason.
- IndexPage.IndexTablePlain: states the table text only for plain variables, for the same reason.
- IndexPage.IndexPagePlain: states the page text only for plain variables, for the same reason.
- Symlinks.Stat: files and directories are not told apart, and permissions are not modelled. A chain of more than 40 links counts as a missing path.
- Symlinks.Resolve: paths are whole strings. A relative link target is not resolved against the link's directory, a path running through a directory that is itself a link is not resolved, and `a//b` or a trailing `/` are different paths from `a/b`. For a relative variable path the code stats it against the working directory at line 83, while the link it makes at `<envdir>/<NAME>` would resolve it against `envdir`; the model resolves both the same way, so `Symlinks.Step` may predict a row the code leaves out.
- The page keeps the literal `100%%` of its style sheet, because `str.format` leaves `%%` alone. The model reproduces that text and claims nothing about it.
- The first link row follows the parent-directory row on the same line, because the table header has no final newline. This is reproduced as written.

=== FILE: environment.dfy ===
/** The tree environment a configuration file loads into: an ordered mapping
    from section name to an ordered mapping from variable name to path. One
    entry, `default`, holds metadata rather than paths; both loops of the
    program skip it by name. */
module Environment {

  const DefaultKey: string := "default"

  datatype Var = Var(name: string, path: string)

  datatype Section = Section(name: string, vars: seq<Var>)

  /** The metadata under `default`: the configuration's name (its version)
      and whether it is the current version. */
  datatype Defaults = Defaults(name: string, current: bool)

  /** `sections` lists every entry of the mapping in its stored order,
      including the `default` entry if it is there; `defaults` is that
      entry's content read as metadata. */
  datatype Env = Env(defaults: Defaults, sections: seq<Section>)

  /** One variable met by a loop over the environment, with its section. */
  datatype Item = Item(section: string, name: string, path: string)

  function SectionItems(sec: Section): (r: seq<Item>)
    ensures |r| == |sec.vars|
    ensures forall j :: 0 <= j < |r| ==> r[j] == Item(sec.name, sec.vars[j].name, sec.vars[j].path)
    decreases |sec.vars|
  {
    if |sec.vars| == 0 then []
    else [Item(sec.name, sec.vars[0].name, sec.vars[0].path)]
         + SectionItems(Section(sec.name, sec.vars[1..]))
  }

  /** The variables the program's loops visit, in visiting order: every
      section but `default`, each section's variables in stored order. */
  function Items(sections: seq<Section>): (r: seq<Item>)
    ensures forall k :: 0 <= k < |r| ==> r[k].section != DefaultKey
  {
    if |sections| == 0 then []
    else (if sections[0].name == DefaultKey then [] else SectionItems(sections[0]))
         + Items(sections[1..])
  }

  /** Visiting the concatenation of two section lists visits the first list
      and then the second: order is preserved across sections. */
  lemma {:induction false} ItemsAppend(a: seq<Section>, b: seq<Section>)
    ensures Items(a + b) == Items(a) + Items(b)
    decreases |a|
  {
    if |a| == 0 {
      assert a + b == b;
    } else {
      assert (a + b)[1..] == a[1..] + b;
      ItemsAppend(a[1..], b);
    }
  }

  /** A variable is visited exactly when it sits in a section other than
      `default`. */
  lemma {:induction false} ItemsMembership(sections: seq<Section>, it: Item)
    ensures it in Items(sections) <==>
      it.section != DefaultKey
      && exists i :: 0 <= i < |sections| && sections[i].name == it.section
                     && Var(it.name, it.path) in sections[i].vars
    decreases |sections|
  {
    if |sections| > 0 {
      ItemsMembership(sections[1..], it);
      var s0 := sections[0];
      var head := if s0.name == DefaultKey then [] else SectionItems(s0);
      assert Items(sections) == head + Items(sections[1..]);
      if it in head {
        var j :| 0 <= j < |head| && head[j] == it;
        assert s0.vars[j] == Var(it.name, it.path);
      }
      if it.section != DefaultKey && s0.name == it.section && Var(it.name, it.path) in s0.vars {
        var j :| 0 <= j < |s0.vars| && s0.vars[j] == Var(it.name, it.path);
        assert head[j] == it;
      }
      if exists i :: 0 <= i < |sections| && sections[i].name == it.section
                     && Var(it.name, it.path) in sections[i].vars {
        var i :| 0 <= i < |sections| && sections[i].name == it.section
                 && Var(it.name, it.path) in sections[i].vars;
        if i > 0 {
          assert sections[1..][i - 1] == sections[i];
        }
      }
      if exists i :: 0 <= i < |sections[1..]| && sections[1..][i].name == it.section
                     && Var(it.name, it.path) in sections[1..][i].vars {
        var i :| 0 <= i < |sections[1..]| && sections[1..][i].name == it.section
                 && Var(it.name, it.path) in sections[1..][i].vars;
        assert sections[i + 1] == sections[1..][i];
      }
    }
  }
}

=== FILE: index_page.dfy ===
/** The index page of `bin/setup_tree.py`: the table `create_index_table`
    builds around the rows of the link pass, the page `create_index_page`
    builds around the table, and `create_env`'s choice of site and of
    whether to publish at all. The page is returned, not written. */
module IndexPage {
  import opened Wrappers
  import opened Text
  import opened Environment
  import opened Symlinks
  import ShellFile

  /** One sortable column heading of the table. */
  function SortHeading(key: string, caption: string): string
  {
    "<th><a href=\"?C=" + key + "&O=A\">" + caption + "</a>&nbsp;"
    + "<a href=\"?C=" + key + "&O=D\">" + "&nbsp;&darr;" + "&nbsp;</a></th>"
  }

  /** The fixed start of the table. It ends with the parent-directory row
      and no newline, so the first link row follows on the same line. */
  function TableHeader(): string
  {
    "<table id=\"list\" " + "cellpadding=" + "\"0.1em\" " + "cellspacing=" + "\"0\">\n"
    + "<colgroup>" + "<col width=" + "\"55%\"/>" + "<col width=" + "\"20%\"/>"
    + "<col width=" + "\"25%\"/>" + "</colgroup>\n"
    + "<thead>\n"
    + "    <tr>" + SortHeading("N", "File Name") + SortHeading("S", "File Size")
    + SortHeading("M", "Date") + "</tr>\n"
    + "</thead>" + "<tbody>\n"
    + "    <tr><td>" + "<a href=\"../\">" + "Parent " + "directory/" + "</a></td>"
    + "<td>-</td>" + "<td>-</td>" + "</tr>"
  }

  const TableFooter: string := "</tbody>" + "</table>"

  /** The table row of one link: its name, as a link, and its date. */
  function RowLine(r: Row): string
  {
    "    <tr><td>" + "<a href=\"" + r.name + "/\">" + r.name + "/</a></td>"
    + "<td>-</td>" + "<td>" + r.stamp + "</td></tr>\n"
  }

  function RowsText(rows: seq<Row>): string
    decreases |rows|
  {
    if |rows| == 0 then "" else RowLine(rows[0]) + RowsText(rows[1..])
  }

  function Table(rows: seq<Row>): string
  {
    TableHeader() + RowsText(rows) + TableFooter
  }

  /** The rows' text of two row lists in a row is their texts in a row. */
  lemma {:induction false} RowsTextAppend(a: seq<Row>, b: seq<Row>)
    ensures RowsText(a + b) == RowsText(a) + RowsText(b)
    decreases |a|
  {
    if |a| == 0 {
      assert a + b == b;
    } else {
      assert (a + b)[1..] == a[1..] + b;
      RowsTextAppend(a[1..], b);
    }
  }

  /** What the link pass leaves, with the text built from its rows. */
  datatype Indexed = Indexed(fs: Fs, text: string)

  /** `create_index_table`: the link pass over the visited variables, then
      the fixed header, one line per row in visiting order, and the fixed
      footer. A refused link aborts it, leaving the links made so far. */
  function CreateIndexTable(env: Env, envdir: Path, fs: Fs): (r: Result<Indexed, Refused>)
    ensures r.Success? <==> Traverse(fs, envdir, Items(env.sections)).Success?
    ensures r.Success? ==> r.value.fs == Traverse(fs, envdir, Items(env.sections)).value.fs
    ensures r.Failure? ==> Traverse(fs, envdir, Items(env.sections)) == Failure(r.error)
  {
    match Traverse(fs, envdir, Items(env.sections))
    case Failure(e) => Failure(e)
    case Success(pass) => Success(Indexed(pass.fs, Table(pass.rows)))
  }

  /** With plain variables the table lists exactly the expected rows: every
      visited variable whose path exists, but for the `_root` names and the
      `general` `sas_base_dir` names, in visiting order. */
  lemma IndexTablePlain(env: Env, envdir: Path, fs: Fs)
    requires Plain(fs, envdir, Items(env.sections))
    ensures Traverse(fs, envdir, Items(env.sections)).Success?
    ensures CreateIndexTable(env, envdir, fs)
            == Success(Indexed(Traverse(fs, envdir, Items(env.sections)).value.fs,
                               Table(ExpectedRows(fs.targets, Items(env.sections)))))
  {
    TraverseRows(fs, envdir, Items(env.sections));
  }

  /** The public address the page points at and the archive it names. */
  datatype Site = Site(url: string, location: string)

  const MainUrl := "https://data.sdss.org"
  const MirrorUrl := "https://data.mirror.sdss.org"
  const MainLocation := "SDSS-IV Science Archive Server (SAS)"
  const MirrorLocation := "SDSS-IV Science Archive Mirror (SAM)"

  /** `create_env`'s choice: the mirror's address and name exactly when
      `mirror` is set, the main archive's otherwise. */
  function SiteFor(mirror: bool): (s: Site)
    ensures mirror <==> s.url == MirrorUrl
    ensures mirror <==> s.location == MirrorLocation
    ensures mirror ==> s == Site(MirrorUrl, MirrorLocation)
    ensures !mirror ==> s == Site(MainUrl, MainLocation)
  {
    if mirror then Site(MirrorUrl, MirrorLocation) else Site(MainUrl, MainLocation)
  }

  /** The page's style sheet. `str.format` turns the template's doubled
      braces into single ones but leaves its `%%` as two characters. */
  function PageStyle(): string
  {
    "body,html {" + "background:#fff;" + "font-family:" + "\"Bitstream " + "Vera Sans\","
    + "\"Lucida Grande\"," + "\"Lucida Sans " + "Unicode\"," + "Lucidux," + "Verdana,"
    + "Lucida," + "sans-serif;}"
    + "tr:nth-child" + "(even) {" + "background:" + "#f4f4f4;}"
    + "th,td {" + "padding:0.1em " + "0.5em;}"
    + "th {" + "text-align:left;" + "font-weight:" + "bold;" + "background:#eee;"
    + "border-bottom:" + "1px solid " + "#aaa;}"
    + "#list {" + "border:1px " + "solid #aaa;" + "width:100%%;}"
    + "a {" + "color:#a33;}" + "a:hover {" + "color:#e33;}"
  }

  /** The page's start, filled in with the site address and the
      configuration name. */
  function PageHeader(url: string, name: string): string
  {
    "<?xml version=" + "\"1.0\" " + "encoding=" + "\"UTF-8\"?>\n"
    + "<!DOCTYPE html " + "PUBLIC " + "\"-//W3C//DTD " + "XHTML 1.0 " + "Strict//EN\" "
    + "\"http://www.w3" + ".org/TR/xhtml1" + "/DTD/xhtml1-" + "strict.dtd\">\n"
    + "<html xmlns=" + "\"http://www.w3" + ".org/1999/" + "xhtml\">\n"
    + "<head>" + "<meta name=" + "\"viewport\" " + "content=" + "\"width=device-" + "width\"/>"
    + "<meta " + "http-equiv=" + "\"content-type\" " + "content=" + "\"text/html; " + "charset=utf-8\"/>"
    + "<style type=" + "\"text/css\">" + PageStyle() + "</style>\n"
    + "<link rel=" + "\"stylesheet\" " + "href=\"" + url + "/css/sas.css\" " + "type=" + "\"text/css\"/>\n"
    + "<title>" + "Index of /sas/" + name + "/env/" + "</title>\n"
    + "</head><body>" + "<h1>" + "Index of /sas/" + name + "/env/" + "</h1>\n"
  }

  /** The page's end, naming the archive and the configuration. */
  function PageFooter(url: string, location: string, name: string): string
  {
    "<h3><a href='" + url + "/sas/'>" + location + "</a></h3>\n"
    + "<p>This " + "directory " + "contains links " + "to the " + "contents of\n"
    + "environment " + "variables " + "defined by " + "the tree " + "product, " + "version " + name + ".\n"
    + "To examine " + "the <em>types" + "</em> of files " + "contained in " + "each " + "environment " + "variable\n"
    + "directory, " + "visit " + "<a href=" + "\"/datamodel/" + "files/\">" + "the " + "datamodel.</a>" + "</p>\n"
    + "</body>" + "</html>\n"
  }

  /** `create_index_page`: the table, between the page's start and end
      filled in for the site and the configuration name. */
  function CreateIndexPage(env: Env, site: Site, envdir: Path, fs: Fs): (r: Result<Indexed, Refused>)
    ensures r.Success? <==> Traverse(fs, envdir, Items(env.sections)).Success?
    ensures r.Success? ==> r.value.fs == Traverse(fs, envdir, Items(env.sections)).value.fs
    ensures r.Failure? ==> Traverse(fs, envdir, Items(env.sections)) == Failure(r.error)
  {
    match CreateIndexTable(env, envdir, fs)
    case Failure(e) => Failure(e)
    case Success(t) =>
      Success(Indexed(t.fs, PageHeader(site.url, env.defaults.name) + t.text
                            + PageFooter(site.url, site.location, env.defaults.name)))
  }

  /** With plain variables the page succeeds, and it is the fixed start,
      the table of exactly the expected rows, and the fixed end. */
  lemma IndexPagePlain(env: Env, site: Site, envdir: Path, fs: Fs)
    requires Plain(fs, envdir, Items(env.sections))
    ensures Traverse(fs, envdir, Items(env.sections)).Success?
    ensures CreateIndexPage(env, site, envdir, fs)
            == Success(Indexed(Traverse(fs, envdir, Items(env.sections)).value.fs,
                               PageHeader(site.url, env.defaults.name)
                               + Table(ExpectedRows(fs.targets, Items(env.sections)))
                               + PageFooter(site.url, site.location, env.defaults.name)))
  {
    IndexTablePlain(env, envdir, fs);
  }

  /** The first section of a given name, as a mapping lookup finds it. */
  function FindSection(sections: seq<Section>, name: string): (r: Option<Section>)
    ensures r.Some? ==> r.value in sections && r.value.name == name
    ensures r.None? <==> forall i :: 0 <= i < |sections| ==> sections[i].name != name
    decreases |sections|
  {
    if |sections| == 0 then None
    else if sections[0].name == name then Some(sections[0])
    else FindSection(sections[1..], name)
  }

  /** The path of the first variable of a given name in a section. */
  function FindVar(vars: seq<Var>, name: string): (r: Option<Path>)
    ensures r.Some? ==> Var(name, r.value) in vars
    ensures r.None? <==> forall i :: 0 <= i < |vars| ==> vars[i].name != name
    decreases |vars|
  {
    if |vars| == 0 then None
    else if vars[0].name == name then Some(vars[0].path)
    else FindVar(vars[1..], name)
  }

  /** Why `create_env` stops with an exception: a missing entry (`KeyError`)
      or a link path a real file occupies (`FileExistsError`), raised with
      the links made so far left in place. */
  datatype EnvError = MissingKey(key: string) | LinkBlocked(refused: Refused)

  /** How `create_env` returns normally: the science archive root is not
      there, the `env` directory is not writable, or the page is written
      after the links are made. */
  datatype EnvOutcome = NoSasRoot | NotWritable | Published(fs: Fs, index: ShellFile.File)

  /** `environ['general']['sas_root']`. */
  function SasRoot(env: Env): (r: Result<Path, EnvError>)
    ensures r.Success? ==> exists sec :: sec in env.sections && sec.name == "general" && Var("sas_root", r.value) in sec.vars
    ensures r == Failure(MissingKey("general")) <==> forall i :: 0 <= i < |env.sections| ==> env.sections[i].name != "general"
    ensures r.Failure? ==> r.error == MissingKey("general") || r.error == MissingKey("sas_root")
    ensures r == Failure(MissingKey("sas_root")) <==>
      FindSection(env.sections, "general").Some? && FindVar(FindSection(env.sections, "general").value.vars, "sas_root").None?
  {
    match FindSection(env.sections, "general")
    case None => Failure(MissingKey("general"))
    case Some(general) =>
      match FindVar(general.vars, "sas_root")
      case None => Failure(MissingKey("sas_root"))
      case Some(root) => Success(root)
  }

  /** `create_env` with the link pass performed on the abstract filesystem
      and the page returned; `writable` answers `os.access` for the `env`
      directory. */
  function CreateEnv(env: Env, mirror: bool, fs: Fs, writable: bool): (r: Result<EnvOutcome, EnvError>)
    ensures SasRoot(env).Failure? ==> r == Failure(SasRoot(env).error)
    ensures r == Success(NoSasRoot) <==> SasRoot(env).Success? && !Exists(fs, SasRoot(env).value)
    ensures r == Success(NotWritable) <==> SasRoot(env).Success? && Exists(fs, SasRoot(env).value) && !writable
    ensures r.Success? && r.value.Published? ==>
      var envdir := Join(SasRoot(env).value, "env");
      && r.value.index.path == Join(envdir, "index.html")
      && CreateIndexPage(env, SiteFor(mirror), envdir, fs)
         == Success(Indexed(r.value.fs, r.value.index.contents))
    ensures r.Failure? && r.error.LinkBlocked? ==>
      && SasRoot(env).Success? && Exists(fs, SasRoot(env).value) && writable
      && CreateIndexPage(env, SiteFor(mirror), Join(SasRoot(env).value, "env"), fs) == Failure(r.error.refused)
    ensures r.Failure? ==> SasRoot(env).Failure? || r.error.LinkBlocked?
    ensures SasRoot(env).Success? && Exists(fs, SasRoot(env).value) && writable ==>
      (r.Success? <==> CreateIndexPage(env, SiteFor(mirror), Join(SasRoot(env).value, "env"), fs).Success?)
  {
    match SasRoot(env)
    case Failure(e) => Failure(e)
    case Success(root) =>
      if !Exists(fs, root) then Success(NoSasRoot)
      else
        var envdir := Join(root, "env");
        if !writable then Success(NotWritable)
        else
          Publish(env, SiteFor(mirror), envdir, fs)
  }

  /** The last part of `create_env`: the page made, with its links, and
      written to `index.html` in `envdir`. */
  function Publish(env: Env, site: Site, envdir: Path, fs: Fs): (r: Result<EnvOutcome, EnvError>)
    ensures r.Success? <==> CreateIndexPage(env, site, envdir, fs).Success?
    ensures r.Success? ==>
      && r.value.Published?
      && r.value.index.path == Join(envdir, "index.html")
      && CreateIndexPage(env, site, envdir, fs) == Success(Indexed(r.value.fs, r.value.index.contents))
    ensures r.Failure? ==> r.error.LinkBlocked? && CreateIndexPage(env, site, envdir, fs) == Failure(r.error.refused)
  {
    match CreateIndexPage(env, site, envdir, fs)
    case Failure(e) => Failure(LinkBlocked(e))
    case Success(page) => Success(Published(page.fs, ShellFile.File(Join(envdir, "index.html"), page.text)))
  }

  /** The filesystem `create_env` leaves, however it ends. */
  function EnvLeft(r: Result<EnvOutcome, EnvError>, fs: Fs): Fs
  {
    match r
    case Success(Published(fs1, _)) => fs1
    case Failure(LinkBlocked(e)) => e.fs
    case _ => fs
  }

  /** However `create_env` ends, it changes no real path and no link other
      than the variables' own links in `<sas_root>/env`. */
  lemma CreateEnvFrame(env: Env, mirror: bool, fs: Fs, writable: bool)
    requires SasRoot(env).Success?
    ensures var left := EnvLeft(CreateEnv(env, mirror, fs, writable), fs);
            var ps := LinkPaths(Join(SasRoot(env).value, "env"), Items(env.sections));
            left.targets == fs.targets && left.links - ps == fs.links - ps
  {
    var envdir := Join(SasRoot(env).value, "env");
    var tr := Traverse(fs, envdir, Items(env.sections));
    TraverseFrame(fs, envdir, Items(env.sections));
    EnvLeftOf(CreateEnv(env, mirror, fs, writable), fs, CreateIndexPage(env, SiteFor(mirror), envdir, fs), tr);
  }

  /** `create_env` leaves either the filesystem it started from or the one
      the page's link pass left. */
  lemma EnvLeftOf(r: Result<EnvOutcome, EnvError>, fs: Fs, page: Result<Indexed, Refused>, tr: Result<Pass, Refused>)
    requires r.Success? && r.value.Published? ==> page == Success(Indexed(r.value.fs, r.value.index.contents))
    requires r.Failure? && r.error.LinkBlocked? ==> page == Failure(r.error.refused)
    requires page.Success? ==> tr.Success? && page.value.fs == tr.value.fs
    requires page.Failure? ==> tr == Failure(page.error)
    ensures EnvLeft(r, fs) == fs || EnvLeft(r, fs) == Left(tr)
  {
  }
}

=== FILE: shell_file.dfy ===
/** The environment-file writer of `bin/setup_tree.py`: `write_header`,
    `write_version` and the file name and text `write_file` produces for the
    three shell dialects. Writing the files to disk is not modelled; the
    writer returns what it would write. */
module ShellFile {
  import opened Wrappers
  import opened Text
  import opened Environment

  /** The three `term` values the program accepts. */
  datatype Dialect = Bash | Tsch | Modules

  function TermName(d: Dialect): string
  {
    match d
    case Bash => "bash"
    case Tsch => "tsch"
    case Modules => "modules"
  }

  /** The assertion at the top of `write_header`: any other term is refused
      (here `None`). */
  function ParseTerm(term: string): (r: Option<Dialect>)
    ensures r.Some? <==> term == "bash" || term == "tsch" || term == "modules"
    ensures r.Some? ==> TermName(r.value) == term
  {
    if term == "bash" then Some(Bash)
    else if term == "tsch" then Some(Tsch)
    else if term == "modules" then Some(Modules)
    else None
  }

  /** The file extension `write_file` looks up for each term. */
  function Extension(d: Dialect): string
  {
    match d
    case Bash => ".sh"
    case Tsch => ".csh"
    case Modules => ".module"
  }

  /** The command word of the non-module headers. */
  function Keyword(d: Dialect): string
  {
    if d == Bash then "export" else "setenv"
  }

  /** One assignment in a dialect's own syntax, without its newline:
      `export NAME=value` in bash, `setenv NAME value` otherwise. */
  function AssignLine(d: Dialect, name: string, value: string): string
  {
    if d == Bash then "export" + " " + name + "=" + value
    else "setenv" + " " + name + " " + value
  }

  /** The values the header gives `PATH` and `PYTHONPATH`: the tree's own
      directories ahead of the inherited ones. */
  const BinPath: string := "$TREE_DIR/bin" + ":$PATH"
  const PythonPath: string := "$TREE_DIR" + "/python:" + "$PYTHONPATH"

  /** The bash/tsch header template as the program fills it in: keyword and
      value are separated by a space, and `TREE_VER` receives the term. */
  function ShellHeaderLinesAsWritten(d: Dialect, productDir: string, name: string): seq<string>
  {
    [ "# Set up " + "tree/" + name + " for " + TermName(d),
      Keyword(d) + " " + "TREE_DIR" + " " + productDir,
      Keyword(d) + " " + "TREE_VER" + " " + TermName(d),
      Keyword(d) + " " + "PATH" + " " + BinPath,
      Keyword(d) + " " + "PYTHONPATH" + " " + PythonPath ]
  }

  /** The bash/tsch header as it is evidently meant: its four lines are
      assignments in the dialect's own syntax, and `TREE_VER` is the
      configuration name, as `version` is in the module header. */
  function ShellHeaderLines(d: Dialect, productDir: string, name: string): seq<string>
  {
    [ "# Set up " + "tree/" + name + " for " + TermName(d),
      AssignLine(d, "TREE_DIR", productDir),
      AssignLine(d, "TREE_VER", name),
      AssignLine(d, "PATH", BinPath),
      AssignLine(d, "PYTHONPATH", PythonPath) ]
  }

  /** The environment-module header; `{{ }}` in the template reads `{ }`.
      (Here and below, long template lines are written as several short
      literals; the text is the same.) */
  function ModulesHeaderLines(productDir: string, name: string): seq<string>
  {
    [ "#%Module1.0",
      "proc " + "ModulesHelp " + "{ } {",
      "    global " + "product " + "version",
      "    puts " + "stderr " + "\"This module " + "adds " + "$product/" + "$version " + "to various " + "paths\"",
      "}",
      "set name " + "tree",
      "set product " + "tree",
      "set version " + name,
      "conflict " + "$product",
      "module-whatis " + "\"Sets up " + "$product/" + "$version " + "in your " + "environment\"",
      "",
      "set " + "PRODUCT_DIR " + productDir,
      "setenv " + "[string " + "toupper " + "$product]" + "_DIR " + "$PRODUCT_DIR",
      "setenv " + "[string " + "toupper " + "$product]" + "_VER " + "$version",
      "prepend-path " + "PATH " + "$PRODUCT_DIR" + "/bin",
      "prepend-path " + "PYTHONPATH " + "$PRODUCT_DIR" + "/python" ]
  }

  /** The whitespace each template carries after its last line. */
  function Padding(d: Dialect): (pad: string)
    ensures AllSpace(pad)
  {
    if d == Modules then "\n\n" + "        " + "        " else "\n" + "        " + "        "
  }

  /** `tree_dir.rstrip('/')`: the directory without its trailing slashes. */
  function ProductDir(treeDir: string): (pd: string)
    ensures |pd| <= |treeDir| && treeDir == pd + treeDir[|pd|..]
    ensures forall k :: |pd| <= k < |treeDir| ==> treeDir[k] == '/'
    ensures pd == [] || pd[|pd| - 1] != '/'
  {
    var pd := RStripChar(treeDir, '/');
    assert treeDir == pd + treeDir[|pd|..];
    pd
  }

  function HeaderLinesAsWritten(d: Dialect, productDir: string, name: string): seq<string>
  {
    if d == Modules then ModulesHeaderLines(productDir, name)
    else ShellHeaderLinesAsWritten(d, productDir, name)
  }

  function HeaderLines(d: Dialect, productDir: string, name: string): seq<string>
  {
    if d == Modules then ModulesHeaderLines(productDir, name)
    else ShellHeaderLines(d, productDir, name)
  }

  /** `write_header` exactly as written: the template filled in with the
      product directory and name, padded, then stripped. Stripping removes
      the padding and nothing else, so the header is the template's lines
      joined by newlines; it neither starts nor ends with whitespace. */
  function WriteHeaderAsWritten(d: Dialect, treeDir: string, name: string): (hdr: string)
    ensures hdr == Unlines(HeaderLinesAsWritten(d, ProductDir(treeDir), name))
    ensures hdr != [] && !IsSpace(hdr[0]) && !IsSpace(hdr[|hdr| - 1])
  {
    var lines := HeaderLinesAsWritten(d, ProductDir(treeDir), name);
    HeaderTrimmed(d, ProductDir(treeDir), name);
    StripTemplate(lines, Padding(d));
    Strip(Unlines(lines) + Padding(d))
  }

  /** `write_header` with the bash/tsch lines corrected to real assignments;
      the module header is unchanged. This is the header the rest of the
      model writes. */
  function WriteHeader(d: Dialect, treeDir: string, name: string): (hdr: string)
    ensures hdr == Unlines(HeaderLines(d, ProductDir(treeDir), name))
    ensures hdr != [] && !IsSpace(hdr[0]) && !IsSpace(hdr[|hdr| - 1])
  {
    var lines := HeaderLines(d, ProductDir(treeDir), name);
    HeaderTrimmed(d, ProductDir(treeDir), name);
    StripTemplate(lines, Padding(d));
    Strip(Unlines(lines) + Padding(d))
  }

  /** Every header template starts with `#` and ends with a letter. */
  lemma HeaderTrimmed(d: Dialect, pd: string, name: string)
    ensures Trimmed(HeaderLines(d, pd, name)) && Trimmed(HeaderLinesAsWritten(d, pd, name))
  {
    if d == Modules {
      ModulesTrimmed(pd, name);
    } else {
      ShellTrimmed(d, pd, name);
    }
  }

  lemma ModulesTrimmed(pd: string, name: string)
    ensures Trimmed(ModulesHeaderLines(pd, name))
  {
    var lines := ModulesHeaderLines(pd, name);
    assert lines[0][0] == '#';
  }

  lemma ShellTrimmed(d: Dialect, pd: string, name: string)
    ensures Trimmed(ShellHeaderLines(d, pd, name)) && Trimmed(ShellHeaderLinesAsWritten(d, pd, name))
  {
    assert ShellHeaderLines(d, pd, name)[0][0] == '#';
    assert ShellHeaderLinesAsWritten(d, pd, name)[0][0] == '#';
  }

  /** `write_version`: the module system's default-version marker, two
      lines naming the configuration. */
  function WriteVersion(name: string): (v: string)
    ensures v == Unlines(["#%Module1.0", "set " + "ModulesVersion " + name])
  {
    "#%Module1.0\n" + "set " + "ModulesVersion " + name
  }

  /** One variable line of the body: the upper-cased name bound to the path. */
  function VarLine(d: Dialect, v: Var): string
  {
    AssignLine(d, Upper(v.name), v.path) + "\n"
  }

  function VarLines(d: Dialect, vars: seq<Var>): string
    decreases |vars|
  {
    if |vars| == 0 then "" else VarLine(d, vars[0]) + VarLines(d, vars[1..])
  }

  /** The comment separator naming a section, then its variable lines. */
  function SectionBlock(d: Dialect, sec: Section): string
  {
    "#\n# " + sec.name + "\n#\n" + VarLines(d, sec.vars)
  }

  /** Everything `write_file` writes after the header line. */
  function Body(d: Dialect, sections: seq<Section>): string
    decreases |sections|
  {
    if |sections| == 0 then ""
    else (if sections[0].name == DefaultKey then "" else SectionBlock(d, sections[0]))
         + Body(d, sections[1..])
  }

  /** The body of two section lists in a row is their bodies in a row:
      sections are written in stored order. */
  lemma {:induction false} BodyAppend(d: Dialect, a: seq<Section>, b: seq<Section>)
    ensures Body(d, a + b) == Body(d, a) + Body(d, b)
    decreases |a|
  {
    if |a| == 0 {
      assert a + b == b;
    } else {
      assert (a + b)[1..] == a[1..] + b;
      BodyAppend(d, a[1..], b);
    }
  }

  /** A `default` entry contributes nothing, wherever it sits and whatever
      it holds. */
  lemma {:induction false} BodySkipsDefault(d: Dialect, a: seq<Section>, s: Section, b: seq<Section>)
    requires s.name == DefaultKey
    ensures Body(d, a + [s] + b) == Body(d, a + b)
  {
    assert Body(d, [s]) == "" by {
      assert [s][1..] == [];
    }
    BodyAppend(d, a, [s]);
    assert Body(d, a + [s]) == Body(d, a);
    BodyAppend(d, a + [s], b);
    BodyAppend(d, a, b);
  }

  datatype File = File(path: string, contents: string)

  /** What one call of `write_file` writes: the environment file, and the
      `.version` marker when there is one. */
  datatype Output = Output(main: File, version: Option<File>)

  /** `write_file` with its writes returned instead of performed. The file
      starts with the header exactly as `write_header` returns it. */
  function WriteFile(env: Env, d: Dialect, outDir: string, treeDir: string): (o: Output)
    ensures o.main.path == Join(outDir, env.defaults.name + Extension(d))
    ensures o.main.contents == WriteHeaderAsWritten(d, treeDir, env.defaults.name) + "\n" + Body(d, env.sections)
    ensures o.version.Some? <==> d == Modules && env.defaults.current
    ensures o.version.Some? ==>
      o.version.value == File(Join(outDir, ".version"), WriteVersion(env.defaults.name))
  {
    var header := WriteHeaderAsWritten(d, treeDir, env.defaults.name);
    Output(MainFile(env, d, outDir, header), VersionFile(env, d, outDir))
  }

  /** `write_file` as it is evidently meant: the same file, starting with
      the corrected header. */
  function WriteFileCorrected(env: Env, d: Dialect, outDir: string, treeDir: string): (o: Output)
    ensures o.main.path == Join(outDir, env.defaults.name + Extension(d))
    ensures o.main.contents == WriteHeader(d, treeDir, env.defaults.name) + "\n" + Body(d, env.sections)
    ensures o.version.Some? <==> d == Modules && env.defaults.current
    ensures o.version.Some? ==>
      o.version.value == File(Join(outDir, ".version"), WriteVersion(env.defaults.name))
  {
    var header := WriteHeader(d, treeDir, env.defaults.name);
    Output(MainFile(env, d, outDir, header), VersionFile(env, d, outDir))
  }

  /** The environment file: `<name><ext>` in the output directory, holding
      the header, a newline and the body. */
  function MainFile(env: Env, d: Dialect, outDir: string, header: string): File
  {
    File(Join(outDir, env.defaults.name + Extension(d)), header + "\n" + Body(d, env.sections))
  }

  /** The `.version` marker: computed every time, written for the module
      dialect of the current version only. */
  function VersionFile(env: Env, d: Dialect, outDir: string): Option<File>
  {
    var modulesVersion := WriteVersion(env.defaults.name);
    if d == Modules && env.defaults.current then Some(File(Join(outDir, ".version"), modulesVersion))
    else None
  }
}

=== FILE: shell_reading.dfy ===
/** How a shell reads the files `write_file` produces: each line is either
    an assignment (`export NAME=value` in bash, `setenv NAME value` in tcsh
    and in environment modules) or binds nothing. Values are taken as
    written, before the shell expands `$VAR` references. This reader is the
    reference the writer is checked against: reading back what was written
    yields the environment's variables, in order. */
module ShellReading {
  import opened Text
  import opened Environment
  import opened ShellFile

  /** One variable a line of a file assigns. */
  datatype Binding = Binding(name: string, value: string)

  /** One word of an `export` line: `NAME=value` with a valid name binds,
      any other word (a bare name, or one whose name part is not an
      identifier) binds nothing. */
  function Assign(w: string): seq<Binding>
  {
    var j := IndexOf(w, '=');
    if j < |w| && VarName(w[..j]) then [Binding(w[..j], w[j + 1..])] else []
  }

  /** The words after `export`, separated by spaces, each read by `Assign`. */
  function ExportWords(s: string): seq<Binding>
    decreases |s|
  {
    if |s| == 0 then []
    else
      var k := IndexOf(s, ' ');
      Assign(s[..k]) + (if k < |s| then ExportWords(s[k + 1..]) else [])
  }

  /** The arguments of `setenv`: a valid name alone sets it to the empty
      string, a valid name and one value sets it to that value, anything
      else sets nothing. */
  function SetenvArgs(s: string): seq<Binding>
  {
    var k := IndexOf(s, ' ');
    if !VarName(s[..k]) then []
    else if k == |s| then [Binding(s, "")]
    else if ' ' in s[k + 1..] then []
    else [Binding(s[..k], s[k + 1..])]
  }

  /** The first seven characters of a line: where `export ` or `setenv `
      (both seven characters long) would stand. */
  function Command(line: string): string
  {
    if |line| >= 7 then line[..7] else []
  }

  /** The variables one line assigns in the given dialect. */
  function ParseLine(line: string, d: Dialect): seq<Binding>
  {
    var cmd := Command(line);
    if d == Bash then
      (if cmd == "export " then ExportWords(line[7..]) else [])
    else if cmd == "setenv " then SetenvArgs(line[7..])
    else []
  }

  /** The lines of a text: the pieces between newlines, the last one kept
      even when no newline ends it. */
  function Lines(text: string): seq<string>
    decreases |text|
  {
    if |text| == 0 then []
    else
      var k := IndexOf(text, '\n');
      [text[..k]] + (if k < |text| then Lines(text[k + 1..]) else [])
  }

  function ParseLines(lines: seq<string>, d: Dialect): seq<Binding>
    decreases |lines|
  {
    if |lines| == 0 then [] else ParseLine(lines[0], d) + ParseLines(lines[1..], d)
  }

  /** The variables a whole file assigns, line by line. */
  function ParseText(text: string, d: Dialect): seq<Binding>
  {
    ParseLines(Lines(text), d)
  }

  /** Text without a space or a newline: one word to the reader above. */
  predicate OneWord(s: string)
  {
    ' ' !in s && '\n' !in s
  }

  /** A character a shell does not take literally inside a word: a control
      character (tab, newline), a quote or the escape, a command separator,
      a redirection, grouping, or a glob, brace, tilde or history pattern. */
  predicate Special(c: char)
  {
    || c < ' '
    || c == '"' || c == '\'' || c == '`' || c == '\\'
    || c == ';' || c == '&' || c == '|' || c == '<' || c == '>' || c == '(' || c == ')'
    || c == '{' || c == '}' || c == '[' || c == ']' || c == '*' || c == '?' || c == '~' || c == '!'
  }

  /** Text a shell reads as a single word, literally but for `$`
      expansions: one word with no special character, and no `#` in front,
      where it would start a comment. */
  predicate Word(s: string)
  {
    && OneWord(s)
    && (forall i :: 0 <= i < |s| ==> !Special(s[i]))
    && (s == [] || s[0] != '#')
  }

  /** A character of a shell variable name. */
  predicate NameChar(c: char)
  {
    'A' <= c <= 'Z' || 'a' <= c <= 'z' || '0' <= c <= '9' || c == '_'
  }

  /** A name bash's `export` and tcsh's `setenv` accept: ASCII letters,
      digits and `_`, not starting with a digit. */
  predicate VarName(s: string)
  {
    s != [] && !('0' <= s[0] <= '9') && forall i :: 0 <= i < |s| ==> NameChar(s[i])
  }

  /** A valid name is one word and holds no `=`. */
  lemma VarNameWord(s: string)
    requires VarName(s)
    ensures Word(s) && '=' !in s
  {
  }

  /** Upper-casing a valid name gives a valid name. */
  lemma UpperVarName(s: string)
    requires VarName(s)
    ensures VarName(Upper(s))
  {
    var u := Upper(s);
    forall i | 0 <= i < |u|
      ensures NameChar(u[i])
    {
      assert u[i] == UpperChar(s[i]);
    }
  }

  /** A variable whose line reads back as written: a valid name, and a path
      with no space or newline. */
  predicate SafeVar(v: Var)
  {
    VarName(v.name) && Word(v.path)
  }

  /** Every section the writer visits has a one-line name and safe
      variables. */
  predicate Readable(sections: seq<Section>)
  {
    forall i :: 0 <= i < |sections| && sections[i].name != DefaultKey ==>
      '\n' !in sections[i].name
      && forall j :: 0 <= j < |sections[i].vars| ==> SafeVar(sections[i].vars[j])
  }

  /** What a reader should find for the visited variables: each upper-cased
      name bound to its path, in visiting order. */
  function Assignments(items: seq<Item>): seq<Binding>
  {
    seq(|items|, k requires 0 <= k < |items| => Binding(Upper(items[k].name), items[k].path))
  }

  lemma AssignmentsAppend(a: seq<Item>, b: seq<Item>)
    ensures Assignments(a + b) == Assignments(a) + Assignments(b)
  {
    assert forall k :: 0 <= k < |a + b| ==> Assignments(a + b)[k] == (Assignments(a) + Assignments(b))[k];
  }

  /** A line followed by a newline is the first line of what follows. */
  lemma LinesCons(l: string, rest: string)
    requires '\n' !in l
    ensures Lines(l + "\n" + rest) == [l] + Lines(rest)
  {
    var t := l + "\n" + rest;
    IndexOfAt(l, '\n', rest);
    assert t[..|l|] == l;
    assert t[|l| + 1..] == rest;
  }

  /** `LinesCons` with what follows the line already split. */
  lemma LinesStep(l: string, t: string, more: seq<string>, r: seq<string>)
    requires '\n' !in l
    requires Lines(t) == more + r
    ensures Lines(l + "\n" + t) == [l] + more + r
  {
    LinesCons(l, t);
  }

  /** Splitting lines joined by newlines gives those lines back. */
  lemma {:induction false} LinesUnlines(lines: seq<string>, rest: string)
    requires |lines| > 0
    requires forall i :: 0 <= i < |lines| ==> '\n' !in lines[i]
    ensures Lines(Unlines(lines) + "\n" + rest) == lines + Lines(rest)
    decreases |lines|
  {
    if |lines| == 1 {
      LinesUnlinesOne(lines, rest);
    } else {
      LinesUnlines(lines[1..], rest);
      LinesUnlinesMore(lines, rest);
    }
  }

  lemma LinesUnlinesOne(lines: seq<string>, rest: string)
    requires |lines| == 1 && '\n' !in lines[0]
    ensures Lines(Unlines(lines) + "\n" + rest) == lines + Lines(rest)
  {
    UnlinesOne(lines, rest);
    LinesCons(lines[0], rest);
    assert lines == [lines[0]];
  }

  lemma UnlinesOne(lines: seq<string>, rest: string)
    requires |lines| == 1
    ensures Unlines(lines) + "\n" + rest == lines[0] + "\n" + rest
  {
  }

  lemma LinesUnlinesMore(lines: seq<string>, rest: string)
    requires |lines| > 1 && '\n' !in lines[0]
    requires Lines(Unlines(lines[1..]) + "\n" + rest) == lines[1..] + Lines(rest)
    ensures Lines(Unlines(lines) + "\n" + rest) == lines + Lines(rest)
  {
    var t := Unlines(lines[1..]) + "\n" + rest;
    UnlinesCons(lines, rest);
    LinesStep(lines[0], t, lines[1..], Lines(rest));
    assert lines == [lines[0]] + lines[1..];
  }

  lemma UnlinesCons(lines: seq<string>, rest: string)
    requires |lines| > 1
    ensures Unlines(lines) + "\n" + rest == lines[0] + "\n" + (Unlines(lines[1..]) + "\n" + rest)
  {
  }

  /** Lines each followed by a newline, as the body writes them. */
  function Terminated(lines: seq<string>): string
    decreases |lines|
  {
    if |lines| == 0 then "" else lines[0] + "\n" + Terminated(lines[1..])
  }

  predicate OneLine(lines: seq<string>)
  {
    forall i :: 0 <= i < |lines| ==> '\n' !in lines[i]
  }

  lemma {:induction false} TerminatedAppend(a: seq<string>, b: seq<string>)
    ensures Terminated(a + b) == Terminated(a) + Terminated(b)
    decreases |a|
  {
    if |a| == 0 {
      assert a + b == b;
    } else {
      assert (a + b)[1..] == a[1..] + b;
      TerminatedAppend(a[1..], b);
    }
  }

  /** Splitting newline-terminated lines gives those lines back. */
  lemma {:induction false} LinesTerminated(lines: seq<string>, rest: string)
    requires OneLine(lines)
    ensures Lines(Terminated(lines) + rest) == lines + Lines(rest)
    decreases |lines|
  {
    if |lines| == 0 {
      assert Terminated(lines) + rest == rest;
    } else {
      assert OneLine(lines[1..]) by {
        forall i | 0 <= i < |lines[1..]| ensures '\n' !in lines[1..][i] {
          assert lines[1..][i] == lines[i + 1];
        }
      }
      LinesTerminated(lines[1..], rest);
      LinesTerminatedStep(lines, rest);
    }
  }

  lemma LinesTerminatedStep(lines: seq<string>, rest: string)
    requires |lines| > 0 && '\n' !in lines[0]
    requires Lines(Terminated(lines[1..]) + rest) == lines[1..] + Lines(rest)
    ensures Lines(Terminated(lines) + rest) == lines + Lines(rest)
  {
    var u := Terminated(lines[1..]);
    assert Terminated(lines) + rest == lines[0] + "\n" + (u + rest);
    LinesStep(lines[0], u + rest, lines[1..], Lines(rest));
    assert lines == [lines[0]] + lines[1..];
  }

  lemma OneLineAppend(a: seq<string>, b: seq<string>)
    requires OneLine(a) && OneLine(b)
    ensures OneLine(a + b)
  {
    forall i | 0 <= i < |a + b| ensures '\n' !in (a + b)[i] {
      if i >= |a| {
        assert (a + b)[i] == b[i - |a|];
      }
    }
  }

  lemma {:induction false} ParseLinesAppend(a: seq<string>, b: seq<string>, d: Dialect)
    ensures ParseLines(a + b, d) == ParseLines(a, d) + ParseLines(b, d)
    decreases |a|
  {
    if |a| == 0 {
      assert a + b == b;
    } else {
      assert (a + b)[1..] == a[1..] + b;
      ParseLinesAppend(a[1..], b, d);
    }
  }

  /** A comment line binds nothing. */
  lemma CommentLine(l: string, d: Dialect)
    requires |l| > 0 && l[0] == '#'
    ensures ParseLine(l, d) == []
  {
  }

  /** An assignment line reads back as exactly the binding it was written
      for, in every dialect. */
  lemma AssignLineRead(d: Dialect, name: string, value: string)
    requires VarName(name) && Word(value)
    ensures '\n' !in AssignLine(d, name, value)
    ensures ParseLine(AssignLine(d, name, value), d) == [Binding(name, value)]
  {
    LineRead(d, name, value);
  }

  /** What the reader itself needs of a line: a valid name and a value that
      is one word. */
  lemma LineRead(d: Dialect, name: string, value: string)
    requires VarName(name) && OneWord(value)
    ensures '\n' !in AssignLine(d, name, value)
    ensures ParseLine(AssignLine(d, name, value), d) == [Binding(name, value)]
  {
    if d == Bash {
      ExportLineRead(name, value);
    } else {
      SetenvLineRead(d, name, value);
    }
  }

  lemma ExportLineRead(name: string, value: string)
    requires VarName(name) && OneWord(value)
    ensures '\n' !in AssignLine(Bash, name, value)
    ensures ParseLine(AssignLine(Bash, name, value), Bash) == [Binding(name, value)]
  {
    var w := name + "=" + value;
    var line := "export " + w;
    VarNameWord(name);
    assert "export" + " " == "export ";
    assert AssignLine(Bash, name, value) == line;
    assert Command(line) == "export " && line[7..] == w;
    IndexOfAbsent(w, ' ');
    IndexOfAt(name, '=', value);
    assert w[..|name|] == name && w[|name| + 1..] == value;
    assert Assign(w) == [Binding(name, value)];
    assert w[..|w|] == w;
    assert ExportWords(w) == Assign(w[..|w|]) + [];
    assert ParseLine(line, Bash) == ExportWords(w);
  }

  lemma SetenvLineRead(d: Dialect, name: string, value: string)
    requires d != Bash
    requires VarName(name) && OneWord(value)
    ensures '\n' !in AssignLine(d, name, value)
    ensures ParseLine(AssignLine(d, name, value), d) == [Binding(name, value)]
  {
    var s := name + " " + value;
    SetenvLineShape(d, name, value);
    CommandSplit("setenv ", s);
    SetenvArgsRead(name, value);
    assert '\n' !in "setenv ";
  }

  lemma SetenvLineShape(d: Dialect, name: string, value: string)
    requires d != Bash
    ensures AssignLine(d, name, value) == "setenv " + (name + " " + value)
  {
    assert "setenv" + " " == "setenv ";
  }

  /** A seven-character command word in front of its arguments. */
  lemma CommandSplit(c: string, s: string)
    requires |c| == 7
    ensures Command(c + s) == c && (c + s)[7..] == s
  {
    assert (c + s)[..7] == c;
  }

  /** `NAME value` after `setenv` binds the name to the value. */
  lemma SetenvArgsRead(name: string, value: string)
    requires VarName(name) && OneWord(value)
    ensures SetenvArgs(name + " " + value) == [Binding(name, value)]
  {
    var s := name + " " + value;
    VarNameWord(name);
    IndexOfAt(name, ' ', value);
    assert s[..|name|] == name && s[|name| + 1..] == value;
  }

  /** Words without `=` bind nothing after `export`. */
  lemma {:induction false} ExportWithoutEquals(s: string)
    requires '=' !in s
    ensures ExportWords(s) == []
    decreases |s|
  {
    if |s| > 0 {
      var k := IndexOf(s, ' ');
      IndexOfAbsent(s[..k], '=');
      if k < |s| {
        ExportWithoutEquals(s[k + 1..]);
      }
    }
  }

  /** The lines `VarLines` writes, one per variable. */
  function VarLineSeq(d: Dialect, vars: seq<Var>): seq<string>
    decreases |vars|
  {
    if |vars| == 0 then [] else [AssignLine(d, Upper(vars[0].name), vars[0].path)] + VarLineSeq(d, vars[1..])
  }

  /** The three comment lines naming a section. */
  function Separator(name: string): seq<string>
  {
    ["#", "# " + name, "#"]
  }

  /** The lines of one section's block: its separator, then its variables. */
  function SectionLines(d: Dialect, s: Section): seq<string>
  {
    Separator(s.name) + VarLineSeq(d, s.vars)
  }

  /** The lines `Body` writes: each section's block but `default`'s. */
  function BodyLines(d: Dialect, sections: seq<Section>): seq<string>
    decreases |sections|
  {
    if |sections| == 0 then []
    else (if sections[0].name == DefaultKey then [] else SectionLines(d, sections[0]))
         + BodyLines(d, sections[1..])
  }

  lemma {:induction false} VarLineSeqRead(d: Dialect, s: Section)
    requires forall j :: 0 <= j < |s.vars| ==> SafeVar(s.vars[j])
    ensures ParseLines(VarLineSeq(d, s.vars), d) == Assignments(SectionItems(s))
    decreases |s.vars|
  {
    if |s.vars| > 0 {
      var v := s.vars[0];
      var s' := Section(s.name, s.vars[1..]);
      UpperVarName(v.name);
      LineRead(d, Upper(v.name), v.path);
      VarLineSeqRead(d, s');
      assert VarLineSeq(d, s.vars) == [AssignLine(d, Upper(v.name), v.path)] + VarLineSeq(d, s'.vars);
      assert SectionItems(s) == [Item(s.name, v.name, v.path)] + SectionItems(s');
      AssignmentsAppend([Item(s.name, v.name, v.path)], SectionItems(s'));
    }
  }

  /** The variable lines are written one per line. */
  lemma {:induction false} VarLinesTerminated(d: Dialect, vars: seq<Var>)
    requires forall j :: 0 <= j < |vars| ==> SafeVar(vars[j])
    ensures VarLines(d, vars) == Terminated(VarLineSeq(d, vars))
    ensures OneLine(VarLineSeq(d, vars))
    decreases |vars|
  {
    if |vars| > 0 {
      var v := vars[0];
      var line := AssignLine(d, Upper(v.name), v.path);
      VarLinesTerminated(d, vars[1..]);
      UpperVarName(v.name);
      LineRead(d, Upper(v.name), v.path);
      assert VarLineSeq(d, vars) == [line] + VarLineSeq(d, vars[1..]);
      OneLineAppend([line], VarLineSeq(d, vars[1..]));
    }
  }

  /** The lines of one section block: its separator, then its variables. */
  lemma SectionTerminated(d: Dialect, s: Section)
    requires '\n' !in s.name
    requires forall j :: 0 <= j < |s.vars| ==> SafeVar(s.vars[j])
    ensures SectionBlock(d, s) == Terminated(SectionLines(d, s))
    ensures OneLine(SectionLines(d, s))
  {
    var sep := Separator(s.name);
    var vl := VarLineSeq(d, s.vars);
    VarLinesTerminated(d, s.vars);
    TerminatedAppend(sep, vl);
    SeparatorText(s.name);
    OneLineAppend(sep, vl);
  }

  lemma SeparatorText(name: string)
    requires '\n' !in name
    ensures Terminated(Separator(name)) == "#\n# " + name + "\n#\n"
    ensures OneLine(Separator(name))
  {
    var sep := Separator(name);
    assert Terminated(sep[2..]) == "#\n" by {
      assert sep[2..][1..] == [];
    }
    assert Terminated(sep[1..]) == "# " + name + "\n" + "#\n";
  }

  lemma ReadableTail(sections: seq<Section>)
    requires |sections| > 0 && Readable(sections)
    ensures Readable(sections[1..])
    ensures sections[0].name != DefaultKey ==>
      '\n' !in sections[0].name
      && forall j :: 0 <= j < |sections[0].vars| ==> SafeVar(sections[0].vars[j])
  {
    var tail := sections[1..];
    forall i | 0 <= i < |tail| && tail[i].name != DefaultKey
      ensures '\n' !in tail[i].name
      ensures forall j :: 0 <= j < |tail[i].vars| ==> SafeVar(tail[i].vars[j])
    {
      assert tail[i] == sections[i + 1];
    }
  }

  /** The body is its lines, each followed by a newline. */
  lemma {:induction false} BodyTerminated(d: Dialect, sections: seq<Section>)
    requires Readable(sections)
    ensures Body(d, sections) == Terminated(BodyLines(d, sections))
    ensures OneLine(BodyLines(d, sections))
    decreases |sections|
  {
    if |sections| > 0 {
      ReadableTail(sections);
      BodyTerminated(d, sections[1..]);
      BodyTerminatedStep(d, sections);
    }
  }

  lemma BodyTerminatedStep(d: Dialect, sections: seq<Section>)
    requires |sections| > 0
    requires sections[0].name != DefaultKey ==>
      '\n' !in sections[0].name
      && forall j :: 0 <= j < |sections[0].vars| ==> SafeVar(sections[0].vars[j])
    requires Body(d, sections[1..]) == Terminated(BodyLines(d, sections[1..]))
    requires OneLine(BodyLines(d, sections[1..]))
    ensures Body(d, sections) == Terminated(BodyLines(d, sections))
    ensures OneLine(BodyLines(d, sections))
  {
    var s := sections[0];
    var tail := sections[1..];
    if s.name == DefaultKey {
      assert Body(d, sections) == Body(d, tail);
      assert BodyLines(d, sections) == BodyLines(d, tail);
    } else {
      var block := SectionLines(d, s);
      assert Body(d, sections) == SectionBlock(d, s) + Body(d, tail);
      assert BodyLines(d, sections) == block + BodyLines(d, tail);
      SectionTerminated(d, s);
      TerminatedAppend(block, BodyLines(d, tail));
      OneLineAppend(block, BodyLines(d, tail));
    }
  }

  lemma {:induction false} BodyLinesRead(d: Dialect, sections: seq<Section>)
    requires Readable(sections)
    ensures ParseLines(BodyLines(d, sections), d) == Assignments(Items(sections))
    decreases |sections|
  {
    if |sections| > 0 {
      ReadableTail(sections);
      BodyLinesRead(d, sections[1..]);
      BodyLinesReadStep(d, sections);
    }
  }

  lemma BodyLinesReadStep(d: Dialect, sections: seq<Section>)
    requires |sections| > 0
    requires sections[0].name != DefaultKey ==>
      '\n' !in sections[0].name
      && forall j :: 0 <= j < |sections[0].vars| ==> SafeVar(sections[0].vars[j])
    requires ParseLines(BodyLines(d, sections[1..]), d) == Assignments(Items(sections[1..]))
    ensures ParseLines(BodyLines(d, sections), d) == Assignments(Items(sections))
  {
    var s := sections[0];
    var tail := sections[1..];
    if s.name == DefaultKey {
      assert BodyLines(d, sections) == BodyLines(d, tail);
      assert Items(sections) == Items(tail);
    } else {
      assert BodyLines(d, sections) == SectionLines(d, s) + BodyLines(d, tail);
      SectionLinesRead(d, s);
      AppendRead(SectionLines(d, s), BodyLines(d, tail), d, Assignments(SectionItems(s)), Assignments(Items(tail)));
      assert Items(sections) == SectionItems(s) + Items(tail);
      AssignmentsAppend(SectionItems(s), Items(tail));
    }
  }

  /** A section's block reads as its variables, upper-cased, in order. */
  lemma SectionLinesRead(d: Dialect, s: Section)
    requires forall j :: 0 <= j < |s.vars| ==> SafeVar(s.vars[j])
    ensures ParseLines(SectionLines(d, s), d) == Assignments(SectionItems(s))
  {
    SeparatorRead(d, s.name);
    VarLineSeqRead(d, s);
    AppendRead(Separator(s.name), VarLineSeq(d, s.vars), d, [], Assignments(SectionItems(s)));
    assert [] + Assignments(SectionItems(s)) == Assignments(SectionItems(s));
  }

  /** Lines read as `a` followed by lines read as `b` read as `a` then `b`. */
  lemma AppendRead(x: seq<string>, y: seq<string>, d: Dialect, a: seq<Binding>, b: seq<Binding>)
    requires ParseLines(x, d) == a && ParseLines(y, d) == b
    ensures ParseLines(x + y, d) == a + b
  {
    ParseLinesAppend(x, y, d);
  }

  /** The three comment lines naming a section bind nothing. */
  lemma SeparatorRead(d: Dialect, name: string)
    ensures ParseLines(Separator(name), d) == []
  {
    var sep := Separator(name);
    CommentLine("#", d);
    CommentLine("# " + name, d);
    assert ParseLines(sep[2..], d) == ParseLine("#", d) + ParseLines(sep[3..], d);
    assert ParseLines(sep[1..], d) == ParseLine("# " + name, d) + ParseLines(sep[2..], d);
  }

  /** Reading the body back yields every visited variable, upper-cased and
      bound to its path, in the order the loops visit them. */
  lemma BodyRead(d: Dialect, sections: seq<Section>)
    requires Readable(sections)
    ensures ParseText(Body(d, sections), d) == Assignments(Items(sections))
  {
    BodyTerminated(d, sections);
    LinesOfTerminated(BodyLines(d, sections), Body(d, sections));
    BodyLinesRead(d, sections);
  }

  /** Lines each followed by a newline split back into those lines. */
  lemma LinesOfTerminated(lines: seq<string>, text: string)
    requires OneLine(lines) && text == Terminated(lines)
    ensures Lines(text) == lines
  {
    LinesTerminated(lines, "");
    assert Terminated(lines) + "" == text;
    assert lines + Lines("") == lines;
  }

  lemma ParseLinesCons(l: string, rest: seq<string>, d: Dialect)
    ensures ParseLines([l] + rest, d) == ParseLine(l, d) + ParseLines(rest, d)
  {
    assert ([l] + rest)[1..] == rest;
  }

  /** Reading one more line in front of lines already read. */
  lemma ReadCons(l: string, rest: seq<string>, d: Dialect, v: seq<Binding>, w: seq<Binding>)
    requires ParseLine(l, d) == v && ParseLines(rest, d) == w
    ensures ParseLines([l] + rest, d) == v + w
  {
    ParseLinesCons(l, rest, d);
  }

  /** The four variables the corrected bash/tsch header sets. */
  function HeaderBindings(productDir: string, name: string): seq<Binding>
  {
    [ Binding("TREE_DIR", productDir), Binding("TREE_VER", name),
      Binding("PATH", BinPath), Binding("PYTHONPATH", PythonPath) ]
  }

  lemma TreeDirName() ensures VarName("TREE_DIR") {}
  lemma TreeVerName() ensures VarName("TREE_VER") {}
  lemma PathName() ensures VarName("PATH") && OneWord(BinPath) {}
  lemma PythonPathName() ensures VarName("PYTHONPATH") && OneWord(PythonPath) {}

  /** The header's two search-path values are single words to a shell. */
  lemma SearchPathsWords()
    ensures Word(BinPath) && Word(PythonPath)
  {
    BinPathWord();
    PythonPathWord();
  }

  lemma BinPathWord() ensures Word(BinPath) {}
  lemma PythonPathWord() ensures Word(PythonPath) {}


  /** A header line starting with `#` binds nothing. */
  lemma TitleRead(d: Dialect, name: string)
    ensures ParseLine("# Set up " + "tree/" + name + " for " + TermName(d), d) == []
  {
    var c := "# Set up " + "tree/" + name + " for " + TermName(d);
    assert c[0] == '#';
    CommentLine(c, d);
  }

  /** A comment line followed by the four header assignments sets exactly
      those four variables. */
  lemma HeaderAssignmentsRead(d: Dialect, c: string, productDir: string, version: string)
    requires |c| > 0 && c[0] == '#'
    requires OneWord(productDir) && OneWord(version)
    ensures ParseLines([c, AssignLine(d, "TREE_DIR", productDir), AssignLine(d, "TREE_VER", version),
                        AssignLine(d, "PATH", BinPath), AssignLine(d, "PYTHONPATH", PythonPath)], d)
            == HeaderBindings(productDir, version)
  {
    var rest := [AssignLine(d, "TREE_DIR", productDir), AssignLine(d, "TREE_VER", version),
                 AssignLine(d, "PATH", BinPath), AssignLine(d, "PYTHONPATH", PythonPath)];
    DirLinesRead(d, productDir, version);
    CommentLine(c, d);
    ReadCons(c, rest, d, [], HeaderBindings(productDir, version));
    assert [c] + rest == [c, rest[0], rest[1], rest[2], rest[3]];
  }

  lemma DirLinesRead(d: Dialect, productDir: string, version: string)
    requires OneWord(productDir) && OneWord(version)
    ensures ParseLines([AssignLine(d, "TREE_DIR", productDir), AssignLine(d, "TREE_VER", version),
                        AssignLine(d, "PATH", BinPath), AssignLine(d, "PYTHONPATH", PythonPath)], d)
            == HeaderBindings(productDir, version)
  {
    var l := AssignLine(d, "TREE_DIR", productDir);
    var rest := [AssignLine(d, "TREE_VER", version), AssignLine(d, "PATH", BinPath),
                 AssignLine(d, "PYTHONPATH", PythonPath)];
    VersionLinesRead(d, version);
    TreeDirName();
    LineRead(d, "TREE_DIR", productDir);
    ReadCons(l, rest, d, [Binding("TREE_DIR", productDir)],
             [Binding("TREE_VER", version), Binding("PATH", BinPath), Binding("PYTHONPATH", PythonPath)]);
    assert [l] + rest == [l, rest[0], rest[1], rest[2]];
  }

  lemma VersionLinesRead(d: Dialect, version: string)
    requires OneWord(version)
    ensures ParseLines([AssignLine(d, "TREE_VER", version), AssignLine(d, "PATH", BinPath),
                        AssignLine(d, "PYTHONPATH", PythonPath)], d)
            == [Binding("TREE_VER", version), Binding("PATH", BinPath), Binding("PYTHONPATH", PythonPath)]
  {
    var l := AssignLine(d, "TREE_VER", version);
    var rest := [AssignLine(d, "PATH", BinPath), AssignLine(d, "PYTHONPATH", PythonPath)];
    PathLinesRead(d);
    TreeVerName();
    LineRead(d, "TREE_VER", version);
    ReadCons(l, rest, d, [Binding("TREE_VER", version)],
             [Binding("PATH", BinPath), Binding("PYTHONPATH", PythonPath)]);
    assert [l] + rest == [l, rest[0], rest[1]];
  }

  lemma PathLinesRead(d: Dialect)
    ensures ParseLines([AssignLine(d, "PATH", BinPath), AssignLine(d, "PYTHONPATH", PythonPath)], d)
            == [Binding("PATH", BinPath), Binding("PYTHONPATH", PythonPath)]
  {
    var l := AssignLine(d, "PATH", BinPath);
    var rest := [AssignLine(d, "PYTHONPATH", PythonPath)];
    PythonPathLineRead(d);
    PathName();
    LineRead(d, "PATH", BinPath);
    ReadCons(l, rest, d, [Binding("PATH", BinPath)], [Binding("PYTHONPATH", PythonPath)]);
    assert [l] + rest == [l, rest[0]];
  }

  lemma PythonPathLineRead(d: Dialect)
    ensures ParseLines([AssignLine(d, "PYTHONPATH", PythonPath)], d) == [Binding("PYTHONPATH", PythonPath)]
  {
    var l := AssignLine(d, "PYTHONPATH", PythonPath);
    PythonPathName();
    LineRead(d, "PYTHONPATH", PythonPath);
    ReadCons(l, [], d, [Binding("PYTHONPATH", PythonPath)], []);
    assert [l] + [] == [l];
  }

  lemma HeaderOneLine(d: Dialect, c: string, productDir: string, version: string)
    requires '\n' !in c
    requires OneWord(productDir) && OneWord(version)
    ensures OneLine([c, AssignLine(d, "TREE_DIR", productDir), AssignLine(d, "TREE_VER", version),
                     AssignLine(d, "PATH", BinPath), AssignLine(d, "PYTHONPATH", PythonPath)])
  {
    TreeDirName();
    TreeVerName();
    PathName();
    PythonPathName();
    AssignLineOneLine(d, "TREE_DIR", productDir);
    AssignLineOneLine(d, "TREE_VER", version);
    AssignLineOneLine(d, "PATH", BinPath);
    AssignLineOneLine(d, "PYTHONPATH", PythonPath);
    OneLineFive(c, AssignLine(d, "TREE_DIR", productDir), AssignLine(d, "TREE_VER", version),
                AssignLine(d, "PATH", BinPath), AssignLine(d, "PYTHONPATH", PythonPath));
  }

  lemma AssignLineOneLine(d: Dialect, name: string, value: string)
    requires '\n' !in name && '\n' !in value
    ensures '\n' !in AssignLine(d, name, value)
  {
  }

  lemma OneLineFive(l0: string, l1: string, l2: string, l3: string, l4: string)
    requires '\n' !in l0 && '\n' !in l1 && '\n' !in l2 && '\n' !in l3 && '\n' !in l4
    ensures OneLine([l0, l1, l2, l3, l4])
  {
  }

  /** The corrected bash/tsch header sets the tree directory, the
      configuration name as the version, and the two search paths. */
  lemma ShellHeaderRead(d: Dialect, productDir: string, name: string)
    requires d != Modules
    requires Word(productDir) && Word(name)
    ensures ParseLines(ShellHeaderLines(d, productDir, name), d) == HeaderBindings(productDir, name)
  {
    var c := "# Set up " + "tree/" + name + " for " + TermName(d);
    assert c[0] == '#';
    HeaderAssignmentsRead(d, c, productDir, name);
  }

  /** No line of the corrected bash/tsch header holds a newline. */
  lemma ShellHeaderOneLine(d: Dialect, productDir: string, name: string)
    requires d != Modules
    requires Word(productDir) && Word(name)
    ensures OneLine(ShellHeaderLines(d, productDir, name))
  {
    var c := "# Set up " + "tree/" + name + " for " + TermName(d);
    TitleOneLine(d, name);
    HeaderOneLine(d, c, productDir, name);
  }

  /** The tsch lines as written are assignments in tsch syntax, with the
      shell's name in place of the version. */
  lemma TschAsWrittenLines(productDir: string, name: string)
    ensures ShellHeaderLinesAsWritten(Tsch, productDir, name)
            == ["# Set up " + "tree/" + name + " for " + TermName(Tsch),
                AssignLine(Tsch, "TREE_DIR", productDir), AssignLine(Tsch, "TREE_VER", "tsch"),
                AssignLine(Tsch, "PATH", BinPath), AssignLine(Tsch, "PYTHONPATH", PythonPath)]
  {
  }

  /** The tsch header as written sets `TREE_VER` to the shell's name rather
      than the configuration's. */
  lemma TschHeaderAsWrittenVersion(productDir: string, name: string)
    requires Word(productDir)
    ensures ParseLines(ShellHeaderLinesAsWritten(Tsch, productDir, name), Tsch) == HeaderBindings(productDir, "tsch")
  {
    var c := "# Set up " + "tree/" + name + " for " + TermName(Tsch);
    assert c[0] == '#';
    TschAsWrittenLines(productDir, name);
    assert OneWord("tsch");
    HeaderAssignmentsRead(Tsch, c, productDir, "tsch");
  }

  /** An `export` line whose words hold no `=` binds nothing. */
  lemma ExportLineWithoutEquals(key: string, value: string)
    requires '=' !in key && '=' !in value
    ensures ParseLine("export" + " " + key + " " + value, Bash) == []
  {
    var words := key + " " + value;
    var line := "export" + " " + key + " " + value;
    assert line == "export " + words;
    assert Command(line) == "export " && line[7..] == words;
    ExportWithoutEquals(words);
  }

  /** The bash lines as written: `export`, a name, a space and a value. */
  lemma BashAsWrittenLines(productDir: string, name: string)
    ensures ShellHeaderLinesAsWritten(Bash, productDir, name)
            == ["# Set up " + "tree/" + name + " for " + TermName(Bash),
                "export" + " " + "TREE_DIR" + " " + productDir, "export" + " " + "TREE_VER" + " " + "bash",
                "export" + " " + "PATH" + " " + BinPath, "export" + " " + "PYTHONPATH" + " " + PythonPath]
  {
  }

  lemma AsWrittenValuesWithoutEquals()
    ensures '=' !in "TREE_DIR" && '=' !in "TREE_VER" && '=' !in "bash"
    ensures '=' !in "PATH" && '=' !in BinPath && '=' !in "PYTHONPATH" && '=' !in PythonPath
  {
  }

  /** The bash header as written assigns nothing: every line after the
      comment is `export` followed by words without `=`. */
  lemma BashHeaderAsWrittenBindsNothing(productDir: string, name: string)
    requires '=' !in productDir
    ensures ParseLines(ShellHeaderLinesAsWritten(Bash, productDir, name), Bash) == []
  {
    var c := "# Set up " + "tree/" + name + " for " + TermName(Bash);
    var rest := ["export" + " " + "TREE_DIR" + " " + productDir, "export" + " " + "TREE_VER" + " " + "bash",
                 "export" + " " + "PATH" + " " + BinPath, "export" + " " + "PYTHONPATH" + " " + PythonPath];
    BashAsWrittenLines(productDir, name);
    BashAsWrittenDirRead(productDir);
    assert c[0] == '#';
    CommentLine(c, Bash);
    ReadCons(c, rest, Bash, [], []);
    assert [c] + rest == [c, rest[0], rest[1], rest[2], rest[3]];
  }

  lemma BashAsWrittenDirRead(productDir: string)
    requires '=' !in productDir
    ensures ParseLines(["export" + " " + "TREE_DIR" + " " + productDir, "export" + " " + "TREE_VER" + " " + "bash",
                        "export" + " " + "PATH" + " " + BinPath, "export" + " " + "PYTHONPATH" + " " + PythonPath], Bash)
            == []
  {
    var l := "export" + " " + "TREE_DIR" + " " + productDir;
    var rest := ["export" + " " + "TREE_VER" + " " + "bash", "export" + " " + "PATH" + " " + BinPath,
                 "export" + " " + "PYTHONPATH" + " " + PythonPath];
    BashAsWrittenVersionRead();
    AsWrittenValuesWithoutEquals();
    ExportLineWithoutEquals("TREE_DIR", productDir);
    ReadCons(l, rest, Bash, [], []);
    assert [l] + rest == [l, rest[0], rest[1], rest[2]];
  }

  lemma BashAsWrittenVersionRead()
    ensures ParseLines(["export" + " " + "TREE_VER" + " " + "bash", "export" + " " + "PATH" + " " + BinPath,
                        "export" + " " + "PYTHONPATH" + " " + PythonPath], Bash)
            == []
  {
    var l := "export" + " " + "TREE_VER" + " " + "bash";
    var rest := ["export" + " " + "PATH" + " " + BinPath, "export" + " " + "PYTHONPATH" + " " + PythonPath];
    BashAsWrittenPathRead();
    AsWrittenValuesWithoutEquals();
    ExportLineWithoutEquals("TREE_VER", "bash");
    ReadCons(l, rest, Bash, [], []);
    assert [l] + rest == [l, rest[0], rest[1]];
  }

  lemma BashAsWrittenPathRead()
    ensures ParseLines(["export" + " " + "PATH" + " " + BinPath, "export" + " " + "PYTHONPATH" + " " + PythonPath], Bash)
            == []
  {
    var l := "export" + " " + "PATH" + " " + BinPath;
    var l2 := "export" + " " + "PYTHONPATH" + " " + PythonPath;
    AsWrittenValuesWithoutEquals();
    ExportLineWithoutEquals("PATH", BinPath);
    ExportLineWithoutEquals("PYTHONPATH", PythonPath);
    ReadCons(l2, [], Bash, [], []);
    assert [l2] + [] == [l2];
    ReadCons(l, [l2], Bash, [], []);
    assert [l] + [l2] == [l, l2];
  }

  lemma TitleOneLine(d: Dialect, name: string)
    requires '\n' !in name
    ensures '\n' !in "# Set up " + "tree/" + name + " for " + TermName(d)
  {
  }

  /** Stripping trailing slashes keeps a prefix, so it adds no character. */
  lemma ProductDirWord(treeDir: string)
    requires Word(treeDir)
    ensures Word(ProductDir(treeDir))
  {
    var pd := ProductDir(treeDir);
    assert pd == treeDir[..|pd|];
    ProductDirKeeps(treeDir, ' ');
    ProductDirKeeps(treeDir, '\n');
  }

  lemma ProductDirKeeps(treeDir: string, c: char)
    requires c !in treeDir
    ensures c !in ProductDir(treeDir)
  {
  }

  /** The bash file `write_file` writes, read back, sets exactly the
      visited variables, upper-cased, to their paths, in visiting order: its
      header sets nothing. */
  lemma BashFileRead(env: Env, outDir: string, treeDir: string)
    requires Readable(env.sections)
    requires '=' !in treeDir && '\n' !in treeDir && '\n' !in env.defaults.name
    ensures ParseText(WriteFile(env, Bash, outDir, treeDir).main.contents, Bash)
            == Assignments(Items(env.sections))
  {
    var pd := ProductDir(treeDir);
    var hl := ShellHeaderLinesAsWritten(Bash, pd, env.defaults.name);
    ProductDirKeeps(treeDir, '=');
    ProductDirKeeps(treeDir, '\n');
    AsWrittenOneLine(Bash, pd, env.defaults.name);
    BashHeaderAsWrittenBindsNothing(pd, env.defaults.name);
    FileText(hl, Bash, env.sections);
    assert [] + Assignments(Items(env.sections)) == Assignments(Items(env.sections));
  }

  /** The tsch file `write_file` writes, read back, sets the tree directory,
      `TREE_VER` to `tsch`, the two search paths, and then every visited
      variable, upper-cased, to its path, in visiting order. */
  lemma TschFileRead(env: Env, outDir: string, treeDir: string)
    requires Readable(env.sections)
    requires Word(treeDir) && '\n' !in env.defaults.name
    ensures ParseText(WriteFile(env, Tsch, outDir, treeDir).main.contents, Tsch)
            == HeaderBindings(ProductDir(treeDir), "tsch") + Assignments(Items(env.sections))
  {
    var pd := ProductDir(treeDir);
    var hl := ShellHeaderLinesAsWritten(Tsch, pd, env.defaults.name);
    ProductDirWord(treeDir);
    AsWrittenOneLine(Tsch, pd, env.defaults.name);
    TschHeaderAsWrittenVersion(pd, env.defaults.name);
    FileText(hl, Tsch, env.sections);
  }

  /** The corrected bash or tsch file, read back, sets the tree directory,
      the configuration name, the two search paths, and then every visited
      variable, upper-cased, to its path, in visiting order. */
  lemma CorrectedFileRead(env: Env, d: Dialect, outDir: string, treeDir: string)
    requires d != Modules
    requires Readable(env.sections)
    requires Word(treeDir) && Word(env.defaults.name)
    ensures ParseText(WriteFileCorrected(env, d, outDir, treeDir).main.contents, d)
            == HeaderBindings(ProductDir(treeDir), env.defaults.name) + Assignments(Items(env.sections))
  {
    var pd := ProductDir(treeDir);
    var hl := HeaderLines(d, pd, env.defaults.name);
    ProductDirWord(treeDir);
    ShellHeaderRead(d, pd, env.defaults.name);
    ShellHeaderOneLine(d, pd, env.defaults.name);
    FileText(hl, d, env.sections);
  }

  /** A header followed by a newline and the body reads as the header's
      lines, then the body's variables. */
  lemma FileText(hl: seq<string>, d: Dialect, sections: seq<Section>)
    requires |hl| > 0 && OneLine(hl)
    requires Readable(sections)
    ensures ParseText(Unlines(hl) + "\n" + Body(d, sections), d)
            == ParseLines(hl, d) + Assignments(Items(sections))
  {
    var bl := BodyLines(d, sections);
    BodyTerminated(d, sections);
    FileLines(hl, Body(d, sections), bl);
    ParseLinesAppend(hl, bl, d);
    BodyLinesRead(d, sections);
  }

  lemma FileLines(hl: seq<string>, body: string, bl: seq<string>)
    requires |hl| > 0 && OneLine(hl) && OneLine(bl)
    requires body == Terminated(bl)
    ensures Lines(Unlines(hl) + "\n" + body) == hl + bl
  {
    LinesUnlines(hl, body);
    LinesOfTerminated(bl, body);
  }

  /** The bash/tsch template lines as written are single lines. */
  lemma AsWrittenOneLine(d: Dialect, productDir: string, name: string)
    requires d != Modules
    requires '\n' !in productDir && '\n' !in name
    ensures OneLine(ShellHeaderLinesAsWritten(d, productDir, name))
  {
    TitleOneLine(d, name);
    TreeDirName();
    TreeVerName();
    PathName();
    PythonPathName();
    assert '\n' !in TermName(d);
    KeywordLineOneLine(d, "TREE_DIR", productDir);
    KeywordLineOneLine(d, "TREE_VER", TermName(d));
    KeywordLineOneLine(d, "PATH", BinPath);
    KeywordLineOneLine(d, "PYTHONPATH", PythonPath);
    OneLineFive("# Set up " + "tree/" + name + " for " + TermName(d),
                Keyword(d) + " " + "TREE_DIR" + " " + productDir,
                Keyword(d) + " " + "TREE_VER" + " " + TermName(d),
                Keyword(d) + " " + "PATH" + " " + BinPath,
                Keyword(d) + " " + "PYTHONPATH" + " " + PythonPath);
  }

  lemma KeywordLineOneLine(d: Dialect, key: string, value: string)
    requires '\n' !in key && '\n' !in value
    ensures '\n' !in Keyword(d) + " " + key + " " + value
  {
  }

  /** A header whose lines read as `v`, followed by a newline, reads as `v`. */
  lemma HeaderText(hdr: string, hl: seq<string>, d: Dialect, v: seq<Binding>)
    requires hdr == Unlines(hl) && |hl| > 0 && OneLine(hl)
    requires ParseLines(hl, d) == v
    ensures ParseText(hdr + "\n", d) == v
  {
    FileText(hl, d, []);
    assert Body(d, []) == "";
    assert hdr + "\n" + Body(d, []) == hdr + "\n";
    assert Items([]) == [];
    assert v + Assignments(Items([])) == v;
  }

  /** The header `write_header` produces for bash, followed by the newline
      `write_file` puts after it, sets no variable at all. */
  lemma BashHeaderTextAsWritten(treeDir: string, name: string)
    requires '=' !in treeDir && '\n' !in treeDir && '\n' !in name
    ensures ParseText(WriteHeaderAsWritten(Bash, treeDir, name) + "\n", Bash) == []
  {
    var pd := ProductDir(treeDir);
    ProductDirKeeps(treeDir, '=');
    ProductDirKeeps(treeDir, '\n');
    var hl := ShellHeaderLinesAsWritten(Bash, pd, name);
    AsWrittenOneLine(Bash, pd, name);
    BashHeaderAsWrittenBindsNothing(pd, name);
    HeaderText(WriteHeaderAsWritten(Bash, treeDir, name), hl, Bash, []);
  }

  /** The header `write_header` produces for tsch, followed by a newline,
      sets `TREE_VER` to `tsch` whatever the configuration is called. */
  lemma TschHeaderTextAsWritten(treeDir: string, name: string)
    requires Word(treeDir) && '\n' !in name
    ensures ParseText(WriteHeaderAsWritten(Tsch, treeDir, name) + "\n", Tsch)
            == HeaderBindings(ProductDir(treeDir), "tsch")
  {
    var pd := ProductDir(treeDir);
    ProductDirWord(treeDir);
    var hl := ShellHeaderLinesAsWritten(Tsch, pd, name);
    AsWrittenOneLine(Tsch, pd, name);
    TschHeaderAsWrittenVersion(pd, name);
    HeaderText(WriteHeaderAsWritten(Tsch, treeDir, name), hl, Tsch, HeaderBindings(pd, "tsch"));
  }
}

=== FILE: symlinks.dfy ===
/** The link-making pass of `create_index_table` in `bin/setup_tree.py`,
    with `_remove_link` and `make_symlink`, over an abstract filesystem:
    for every visited variable it skips it, removes a stale link, or
    (re)creates the link `<envdir>/<NAME>` to the variable's path, and it
    reports a table row exactly when that link resolves afterwards. */
module Symlinks {
  import opened Wrappers
  import opened Text
  import opened Environment

  type Path = string

  /** A target's modification time as the program formats it for the table.
      It comes from the clock, the time zone and the locale, so the model
      takes it as given with the target. */
  type Stamp = string

  /** Symbolic links, each naming the path it points to, and the paths that
      exist as real files or directories, each with its stamp. */
  datatype Fs = Fs(links: map<Path, Path>, targets: map<Path, Stamp>)

  /** No path is both a link and a real file or directory. */
  predicate Valid(fs: Fs)
  {
    forall p :: p in fs.links ==> p !in fs.targets
  }

  /** Linux follows at most 40 links while resolving one path; a longer
      chain, or a cycle, fails as if nothing were there. */
  const MaxHops: nat := 40

  /** The real file or directory `p` leads to, following at most `hops`
      links. */
  function Resolve(fs: Fs, p: Path, hops: nat): (r: Option<Path>)
    ensures r.Some? ==> r.value in fs.targets
    ensures p in fs.targets ==> r == Some(p)
    ensures p !in fs.targets && p !in fs.links ==> r == None
    decreases hops
  {
    if p in fs.targets then Some(p)
    else if p in fs.links && hops > 0 then Resolve(fs, fs.links[p], hops - 1)
    else None
  }

  /** A link leads where the path it names leads, one link fewer being left
      to follow; so it exists exactly when that path resolves. */
  lemma LinkExists(fs: Fs, link: Path)
    requires link in fs.links && link !in fs.targets
    ensures Resolve(fs, link, MaxHops) == Resolve(fs, fs.links[link], MaxHops - 1)
    ensures Exists(fs, link) <==> Resolve(fs, fs.links[link], MaxHops - 1).Some?
  {
  }

  /** A link to a real file or directory exists, and `os.stat` through it
      gives the stamp of what it names. */
  lemma ExistsThroughLink(fs: Fs, link: Path)
    requires link in fs.links && link !in fs.targets && fs.links[link] in fs.targets
    ensures Exists(fs, link)
    ensures Stat(fs, link) == Some(fs.targets[fs.links[link]])
  {
  }

  /** A link to a path that is neither real nor a link does not exist, and
      `os.stat` through it fails. */
  lemma DanglingLink(fs: Fs, link: Path)
    requires link in fs.links && link !in fs.targets
    requires fs.links[link] !in fs.targets && fs.links[link] !in fs.links
    ensures !Exists(fs, link)
    ensures Stat(fs, link) == None
  {
  }

  /** `os.path.exists(p)`: `p` resolves to something real. */
  predicate Exists(fs: Fs, p: Path)
  {
    Resolve(fs, p, MaxHops).Some?
  }

  /** `os.stat(p)` read as the table's date: the stamp of what `p` resolves
      to, or `None` where the call raises `OSError`. */
  function Stat(fs: Fs, p: Path): (r: Option<Stamp>)
    ensures r.Some? <==> Exists(fs, p)
    ensures r.Some? ==> r.value == fs.targets[Resolve(fs, p, MaxHops).value]
    ensures p in fs.targets ==> r == Some(fs.targets[p])
  {
    match Resolve(fs, p, MaxHops)
    case Some(t) => Some(fs.targets[t])
    case None => None
  }

  /** `_remove_link`: the link at `link`, if there is one, is gone; every
      other link and every real path stays. */
  function RemoveLink(fs: Fs, link: Path): (r: Fs)
    ensures r.targets == fs.targets
    ensures link !in r.links
    ensures r.links - {link} == fs.links - {link}
  {
    if link in fs.links then fs.(links := fs.links - {link}) else fs
  }

  /** `os.symlink` refused `link` because a real file or directory occupies
      it; `fs` is the filesystem as the exception leaves it, with every
      change made before it still in place. */
  datatype Refused = Refused(link: Path, fs: Fs)

  /** `make_symlink`: after removing any link at `link`, create one naming
      `src`. `os.symlink` refuses a path a real file or directory occupies,
      after `_remove_link` has already run. */
  function MakeSymlink(fs: Fs, src: Path, link: Path): (r: Result<Fs, Refused>)
    ensures r.Failure? <==> link in fs.targets
    ensures r.Failure? ==> r.error == Refused(link, RemoveLink(fs, link))
    ensures r.Success? ==> r.value.targets == fs.targets
    ensures r.Success? ==> link in r.value.links && r.value.links[link] == src
    ensures r.Success? ==> r.value.links - {link} == fs.links - {link}
  {
    var cleared := RemoveLink(fs, link);
    if link in cleared.targets then Failure(Refused(link, cleared))
    else Success(cleared.(links := cleared.links[link := src]))
  }

  /** One row of the index table: the link's name and its target's date. */
  datatype Row = Row(name: string, stamp: Stamp)

  /** The filesystem after one variable, and the row it contributes. */
  datatype Visit = Visit(fs: Fs, row: Option<Row>)

  /** Where a variable's link lives: its upper-cased name in `envdir`. */
  function LinkPath(envdir: Path, it: Item): Path
  {
    Join(envdir, Upper(it.name))
  }

  predicate General(it: Item)
  {
    it.section == "general"
  }

  /** The two `general` variables linked only when their target exists. */
  predicate LinkedIfPresent(it: Item)
  {
    General(it) && (it.name == "cas_load" || it.name == "staging_data")
  }

  /** A variable the pass links: its name does not contain `_root` (in any
      section), its path can be stat-ed, and it is not a `general` variable
      whose name contains `sas_base_dir`. */
  predicate Processed(fs: Fs, it: Item)
  {
    && !Contains(it.name, "_root")
    && Stat(fs, it.path).Some?
    && !(General(it) && Contains(it.name, "sas_base_dir"))
  }

  /** One turn of the inner loop of `create_index_table`. */
  function Step(fs: Fs, envdir: Path, it: Item): (r: Result<Visit, Refused>)
    ensures r.Success? ==> r.value.fs.targets == fs.targets
    ensures r.Success? ==> r.value.fs.links - {LinkPath(envdir, it)} == fs.links - {LinkPath(envdir, it)}
    ensures r.Failure? <==> Processed(fs, it) && LinkPath(envdir, it) in fs.targets
    ensures r.Failure? ==> r.error == Refused(LinkPath(envdir, it), RemoveLink(fs, LinkPath(envdir, it)))
    ensures r.Success? && Processed(fs, it) ==>
      LinkPath(envdir, it) in r.value.fs.links && r.value.fs.links[LinkPath(envdir, it)] == it.path
    ensures r.Success? && Processed(fs, it) ==>
      (r.value.row.Some? <==> Exists(r.value.fs, LinkPath(envdir, it)))
    ensures r.Success? && r.value.row.Some? ==>
      Processed(fs, it) && r.value.row.value == Row(Upper(it.name), Stat(fs, it.path).value)
    ensures !Processed(fs, it) ==> r.Success? && r.value.row == None
    ensures !Processed(fs, it) && !Contains(it.name, "_root") && Stat(fs, it.path).None? ==>
      LinkPath(envdir, it) !in r.value.fs.links
    ensures !Processed(fs, it) && (Contains(it.name, "_root") || Stat(fs, it.path).Some?) ==>
      r.value.fs == fs
  {
    if Contains(it.name, "_root") then Success(Visit(fs, None))
    else
      var src := it.path;
      var link := LinkPath(envdir, it);
      match Stat(fs, src)
      case None => Success(Visit(RemoveLink(fs, link), None))
      case Some(stamp) =>
        if General(it) && Contains(it.name, "sas_base_dir") then Success(Visit(fs, None))
        else
          var made :=
            if LinkedIfPresent(it) then (if Exists(fs, src) then MakeSymlink(fs, src, link) else Success(fs))
            else MakeSymlink(fs, src, link);
          match made
          case Failure(e) => Failure(e)
          case Success(fs1) =>
            Success(Visit(fs1, if Exists(fs1, link) then Some(Row(Upper(it.name), stamp)) else None))
  }

  /** The whole pass and the rows it collects, in visiting order. */
  datatype Pass = Pass(fs: Fs, rows: seq<Row>)

  /** The loops of `create_index_table` as a fold over the visited
      variables; the first refused link aborts the pass, and the links made
      and removed before it stay. */
  function Traverse(fs: Fs, envdir: Path, items: seq<Item>): (r: Result<Pass, Refused>)
    ensures r.Success? ==> r.value.fs.targets == fs.targets
    ensures r.Success? ==> |r.value.rows| <= |items|
    ensures r.Failure? ==> r.error.fs.targets == fs.targets
    ensures r.Failure? ==> exists i :: 0 <= i < |items| && r.error.link == LinkPath(envdir, items[i])
    decreases |items|
  {
    if |items| == 0 then Success(Pass(fs, []))
    else
      match Step(fs, envdir, items[0])
      case Failure(e) => Failure(e)
      case Success(v) => Prepend(v.row, Traverse(v.fs, envdir, items[1..]))
  }

  /** A row, if any, in front of the rows of a pass that did not fail. */
  function Prepend(row: Option<Row>, r: Result<Pass, Refused>): Result<Pass, Refused>
  {
    match r
    case Failure(e) => Failure(e)
    case Success(rest) => Success(Pass(rest.fs, (if row.Some? then [row.value] else []) + rest.rows))
  }

  /** A pass that did not fail, continued over more variables. */
  function Continue(r: Result<Pass, Refused>, envdir: Path, b: seq<Item>): Result<Pass, Refused>
  {
    match r
    case Failure(e) => Failure(e)
    case Success(first) =>
      match Traverse(first.fs, envdir, b)
      case Failure(e) => Failure(e)
      case Success(second) => Success(Pass(second.fs, first.rows + second.rows))
  }

  /** The filesystem a pass leaves, whether it finished or was refused. */
  function Left(r: Result<Pass, Refused>): Fs
  {
    match r
    case Success(pass) => pass.fs
    case Failure(e) => e.fs
  }

  /** The paths a list of variables may link. */
  function LinkPaths(envdir: Path, items: seq<Item>): (ps: set<Path>)
    ensures forall i :: 0 <= i < |items| ==> LinkPath(envdir, items[i]) in ps
  {
    set i | 0 <= i < |items| :: LinkPath(envdir, items[i])
  }

  /** Neither a refused link nor a finished pass changes a real path or a
      link outside the variables' own link paths. */
  lemma {:induction false} TraverseFrame(fs: Fs, envdir: Path, items: seq<Item>)
    ensures Left(Traverse(fs, envdir, items)).targets == fs.targets
    ensures Left(Traverse(fs, envdir, items)).links - LinkPaths(envdir, items)
            == fs.links - LinkPaths(envdir, items)
    decreases |items|
  {
    if |items| > 0 {
      var r := Step(fs, envdir, items[0]);
      if r.Success? {
        TraverseFrame(r.value.fs, envdir, items[1..]);
      }
      FrameThroughStep(fs, envdir, items);
    }
  }

  /** One step of `TraverseFrame`: a refused first step keeps the frame, and
      so does a first step followed by a rest that keeps it. */
  lemma FrameThroughStep(fs: Fs, envdir: Path, items: seq<Item>)
    requires |items| > 0
    requires Step(fs, envdir, items[0]).Success? ==>
      var fs1 := Step(fs, envdir, items[0]).value.fs;
      && Left(Traverse(fs1, envdir, items[1..])).targets == fs1.targets
      && Left(Traverse(fs1, envdir, items[1..])).links - LinkPaths(envdir, items[1..])
         == fs1.links - LinkPaths(envdir, items[1..])
    ensures Left(Traverse(fs, envdir, items)).targets == fs.targets
    ensures Left(Traverse(fs, envdir, items)).links - LinkPaths(envdir, items)
            == fs.links - LinkPaths(envdir, items)
  {
    var link := LinkPath(envdir, items[0]);
    match Step(fs, envdir, items[0])
    case Failure(e) =>
      FrameOne(fs.links, e.fs.links, link, LinkPaths(envdir, items));
    case Success(v) =>
      assert Left(Traverse(fs, envdir, items)) == Left(Traverse(v.fs, envdir, items[1..]));
      FrameStep(fs.links, v.fs.links, Left(Traverse(fs, envdir, items)).links,
                link, LinkPaths(envdir, items[1..]), LinkPaths(envdir, items));
  }

  lemma FrameOne(m0: map<Path, Path>, m1: map<Path, Path>, p: Path, all: set<Path>)
    requires m1 - {p} == m0 - {p}
    requires p in all
    ensures m1 - all == m0 - all
  {
    forall q | q in m1 - all
      ensures q in m0 - all && (m1 - all)[q] == (m0 - all)[q]
    {
      assert q in m1 - {p};
    }
    forall q | q in m0 - all
      ensures q in m1 - all
    {
      assert q in m0 - {p};
    }
  }

  lemma FrameStep(m0: map<Path, Path>, m1: map<Path, Path>, m2: map<Path, Path>,
                  p: Path, rest: set<Path>, all: set<Path>)
    requires m1 - {p} == m0 - {p}
    requires m2 - rest == m1 - rest
    requires p in all && rest <= all
    ensures m2 - all == m0 - all
  {
    forall q | q in m2 - all
      ensures q in m0 - all && (m2 - all)[q] == (m0 - all)[q]
    {
      assert q in m2 - rest;
      assert (m2 - rest)[q] == (m1 - rest)[q];
      assert q in m1 - {p};
      assert (m1 - {p})[q] == (m0 - {p})[q];
    }
    forall q | q in m0 - all
      ensures q in m2 - all
    {
      assert q in m0 - {p};
      assert q in m1 - rest;
    }
  }

  /** Running the pass over two lists in a row is running it over the first
      and then, from where it left the filesystem, over the second. */
  lemma {:induction false} TraverseAppend(fs: Fs, envdir: Path, a: seq<Item>, b: seq<Item>)
    ensures Traverse(fs, envdir, a + b) == Continue(Traverse(fs, envdir, a), envdir, b)
    decreases |a|
  {
    if |a| == 0 {
      assert a + b == b;
      if Traverse(fs, envdir, b).Success? {
        assert [] + Traverse(fs, envdir, b).value.rows == Traverse(fs, envdir, b).value.rows;
      }
    } else {
      assert (a + b)[0] == a[0];
      assert (a + b)[1..] == a[1..] + b;
      match Step(fs, envdir, a[0])
      case Failure(e) =>
      case Success(v) =>
        TraverseAppend(v.fs, envdir, a[1..], b);
        PrependContinue(v.row, Traverse(v.fs, envdir, a[1..]), envdir, b);
    }
  }

  lemma PrependContinue(row: Option<Row>, r: Result<Pass, Refused>, envdir: Path, b: seq<Item>)
    ensures Prepend(row, Continue(r, envdir, b)) == Continue(Prepend(row, r), envdir, b)
  {
    if r.Success? && Traverse(r.value.fs, envdir, b).Success? {
      var head := if row.Some? then [row.value] else [];
      var second := Traverse(r.value.fs, envdir, b).value;
      assert head + (r.value.rows + second.rows) == (head + r.value.rows) + second.rows;
    }
  }

  /** Every step keeps links and real paths apart. */
  lemma StepValid(fs: Fs, envdir: Path, it: Item)
    requires Valid(fs)
    requires Step(fs, envdir, it).Success?
    ensures Valid(Step(fs, envdir, it).value.fs)
  {
    var fs1 := Step(fs, envdir, it).value.fs;
    var link := LinkPath(envdir, it);
    forall p | p in fs1.links
      ensures p !in fs1.targets
    {
      if p != link {
        assert p in fs1.links - {link};
      } else if !Processed(fs, it) && (Contains(it.name, "_root") || Stat(fs, it.path).Some?) {
        assert fs1 == fs;
      }
    }
  }

  /** The pass keeps links and real paths apart, whether it finishes or is
      refused. */
  lemma {:induction false} TraverseValid(fs: Fs, envdir: Path, items: seq<Item>)
    requires Valid(fs)
    ensures Valid(Left(Traverse(fs, envdir, items)))
    decreases |items|
  {
    if |items| > 0 {
      match Step(fs, envdir, items[0])
      case Failure(e) =>
        RemoveLinkValid(fs, LinkPath(envdir, items[0]));
      case Success(v) =>
        StepValid(fs, envdir, items[0]);
        TraverseValid(v.fs, envdir, items[1..]);
    }
  }

  lemma RemoveLinkValid(fs: Fs, link: Path)
    requires Valid(fs)
    ensures Valid(RemoveLink(fs, link))
  {
    var r := RemoveLink(fs, link);
    forall p | p in r.links
      ensures p !in r.targets
    {
      assert p in r.links - {link};
    }
  }

  /** Which variables make a row when no variable's path is a link and no
      link path is taken by a real file: those whose path exists, minus the
      `_root` names and the `general` `sas_base_dir` names. */
  predicate Listed(targets: map<Path, Stamp>, it: Item)
  {
    && !Contains(it.name, "_root")
    && it.path in targets
    && !(General(it) && Contains(it.name, "sas_base_dir"))
  }

  /** The rows the table should hold, computed from the variables and the
      real paths alone. */
  function ExpectedRows(targets: map<Path, Stamp>, items: seq<Item>): seq<Row>
    decreases |items|
  {
    if |items| == 0 then []
    else (if Listed(targets, items[0]) then [Row(Upper(items[0].name), targets[items[0].path])] else [])
         + ExpectedRows(targets, items[1..])
  }

  /** No variable's path is a link or another variable's link path, and no
      link path is occupied by a real file or directory. */
  predicate Plain(fs: Fs, envdir: Path, items: seq<Item>)
  {
    && (forall i :: 0 <= i < |items| ==> items[i].path !in fs.links && LinkPath(envdir, items[i]) !in fs.targets)
    && (forall i, j :: 0 <= i < |items| && 0 <= j < |items| ==> items[i].path != LinkPath(envdir, items[j]))
  }

  /** One step on a plain variable succeeds, and it contributes a row exactly
      when the variable is listed. */
  lemma StepPlain(fs: Fs, envdir: Path, it: Item)
    requires it.path !in fs.links && LinkPath(envdir, it) !in fs.targets
    requires it.path != LinkPath(envdir, it)
    ensures Step(fs, envdir, it).Success?
    ensures Step(fs, envdir, it).value.row ==
      if Listed(fs.targets, it) then Some(Row(Upper(it.name), fs.targets[it.path])) else None
  {
    var link := LinkPath(envdir, it);
    if Processed(fs, it) {
      var fs1 := Step(fs, envdir, it).value.fs;
      assert it.path in fs.targets;
      assert fs1.links[link] == it.path && link !in fs1.targets;
      assert Resolve(fs1, link, MaxHops) == Resolve(fs1, it.path, MaxHops - 1);
    }
  }

  /** With plain variables, the pass makes exactly the expected rows: the
      filesystem state the links pass through changes no decision. */
  lemma {:induction false} TraverseRows(fs: Fs, envdir: Path, items: seq<Item>)
    requires Plain(fs, envdir, items)
    ensures Traverse(fs, envdir, items).Success?
    ensures Traverse(fs, envdir, items).value.rows == ExpectedRows(fs.targets, items)
    decreases |items|
  {
    if |items| > 0 {
      var it := items[0];
      StepPlain(fs, envdir, it);
      var fs1 := Step(fs, envdir, it).value.fs;
      PlainTail(fs, fs1, envdir, items);
      TraverseRows(fs1, envdir, items[1..]);
    }
  }

  lemma PlainTail(fs: Fs, fs1: Fs, envdir: Path, items: seq<Item>)
    requires |items| > 0 && Plain(fs, envdir, items)
    requires fs1.targets == fs.targets
    requires fs1.links - {LinkPath(envdir, items[0])} == fs.links - {LinkPath(envdir, items[0])}
    ensures Plain(fs1, envdir, items[1..])
  {
    var tail := items[1..];
    forall i | 0 <= i < |tail|
      ensures tail[i].path !in fs1.links && LinkPath(envdir, tail[i]) !in fs1.targets
    {
      assert tail[i] == items[i + 1];
      assert items[i + 1].path != LinkPath(envdir, items[0]);
      assert items[i + 1].path !in fs.links - {LinkPath(envdir, items[0])};
    }
    forall i, j | 0 <= i < |tail| && 0 <= j < |tail|
      ensures tail[i].path != LinkPath(envdir, tail[j])
    {
      assert tail[i] == items[i + 1] && tail[j] == items[j + 1];
    }
  }

  /** What one visited variable does to its own link path: nothing, a fresh
      link to its path, or no link. */
  datatype Effect = Keep | Link(at: Path, src: Path) | Unlink(at: Path)

  /** The effect of a variable whose path is not a link: decided by its
      name and by whether its path exists, and by nothing else. */
  function EffectOf(targets: map<Path, Stamp>, envdir: Path, it: Item): Effect
  {
    if Contains(it.name, "_root") then Keep
    else if it.path !in targets then Unlink(LinkPath(envdir, it))
    else if General(it) && Contains(it.name, "sas_base_dir") then Keep
    else Link(LinkPath(envdir, it), it.path)
  }

  function Apply(links: map<Path, Path>, e: Effect): map<Path, Path>
  {
    match e
    case Keep => links
    case Link(at, src) => links[at := src]
    case Unlink(at) => links - {at}
  }

  /** The effects of a list of variables, applied in visiting order. */
  function ApplyAll(links: map<Path, Path>, targets: map<Path, Stamp>, envdir: Path, items: seq<Item>): map<Path, Path>
    decreases |items|
  {
    if |items| == 0 then links
    else ApplyAll(Apply(links, EffectOf(targets, envdir, items[0])), targets, envdir, items[1..])
  }

  predicate Affects(e: Effect, p: Path)
  {
    (e.Link? && e.at == p) || (e.Unlink? && e.at == p)
  }

  /** Some variable of the list sets or removes the link at `p`. */
  predicate Touched(targets: map<Path, Stamp>, envdir: Path, items: seq<Item>, p: Path)
    decreases |items|
  {
    |items| > 0 && (Affects(EffectOf(targets, envdir, items[0]), p) || Touched(targets, envdir, items[1..], p))
  }

  /** What is at `p` among the links: the path it names, or nothing. */
  function Lookup(links: map<Path, Path>, p: Path): Option<Path>
  {
    if p in links then Some(links[p]) else None
  }

  /** One step on a variable whose path is not a link applies its effect. */
  lemma StepEffect(fs: Fs, envdir: Path, it: Item)
    requires it.path !in fs.links && LinkPath(envdir, it) !in fs.targets
    ensures Step(fs, envdir, it).Success?
    ensures Step(fs, envdir, it).value.fs == Fs(Apply(fs.links, EffectOf(fs.targets, envdir, it)), fs.targets)
  {
    var link := LinkPath(envdir, it);
    assert Stat(fs, it.path).Some? <==> it.path in fs.targets;
    if !Contains(it.name, "_root") && it.path !in fs.targets {
      if link !in fs.links {
        assert fs.links - {link} == fs.links;
      }
    } else if Processed(fs, it) {
      assert RemoveLink(fs, link).links[link := it.path] == fs.links[link := it.path];
    }
  }

  /** With plain variables the pass succeeds, and the links it leaves are
      the variables' effects applied in visiting order. */
  lemma {:induction false} TraverseEffect(fs: Fs, envdir: Path, items: seq<Item>)
    requires Plain(fs, envdir, items)
    ensures Traverse(fs, envdir, items).Success?
    ensures Traverse(fs, envdir, items).value.fs == Fs(ApplyAll(fs.links, fs.targets, envdir, items), fs.targets)
    decreases |items|
  {
    if |items| > 0 {
      StepEffect(fs, envdir, items[0]);
      var fs1 := Step(fs, envdir, items[0]).value.fs;
      PlainTail(fs, fs1, envdir, items);
      TraverseEffect(fs1, envdir, items[1..]);
    }
  }

  /** A link path no variable affects keeps whatever it held. */
  lemma {:induction false} ApplyUntouched(links: map<Path, Path>, targets: map<Path, Stamp>, envdir: Path,
                                          items: seq<Item>, p: Path)
    requires !Touched(targets, envdir, items, p)
    ensures Lookup(ApplyAll(links, targets, envdir, items), p) == Lookup(links, p)
    decreases |items|
  {
    if |items| > 0 {
      var e := EffectOf(targets, envdir, items[0]);
      assert Lookup(Apply(links, e), p) == Lookup(links, p);
      ApplyUntouched(Apply(links, e), targets, envdir, items[1..], p);
    }
  }

  /** A link path some variable affects ends up as the last such variable
      leaves it, whatever it held before. */
  lemma {:induction false} ApplyTouched(m1: map<Path, Path>, m2: map<Path, Path>, targets: map<Path, Stamp>,
                                        envdir: Path, items: seq<Item>, p: Path)
    requires Touched(targets, envdir, items, p)
    ensures Lookup(ApplyAll(m1, targets, envdir, items), p) == Lookup(ApplyAll(m2, targets, envdir, items), p)
    decreases |items|
  {
    var e := EffectOf(targets, envdir, items[0]);
    if Touched(targets, envdir, items[1..], p) {
      ApplyTouched(Apply(m1, e), Apply(m2, e), targets, envdir, items[1..], p);
    } else {
      assert Lookup(Apply(m1, e), p) == Lookup(Apply(m2, e), p);
      ApplyUntouched(Apply(m1, e), targets, envdir, items[1..], p);
      ApplyUntouched(Apply(m2, e), targets, envdir, items[1..], p);
    }
  }

  lemma SameLookups(a: map<Path, Path>, b: map<Path, Path>)
    requires forall p :: Lookup(a, p) == Lookup(b, p)
    ensures a == b
  {
    forall p
      ensures p in a <==> p in b
    {
      assert Lookup(a, p) == Lookup(b, p);
    }
    forall p | p in a
      ensures a[p] == b[p]
    {
      assert Lookup(a, p) == Lookup(b, p);
    }
  }

  /** Applying the variables' effects a second time changes nothing. */
  lemma ApplyTwice(links: map<Path, Path>, targets: map<Path, Stamp>, envdir: Path, items: seq<Item>)
    ensures ApplyAll(ApplyAll(links, targets, envdir, items), targets, envdir, items)
            == ApplyAll(links, targets, envdir, items)
  {
    var once := ApplyAll(links, targets, envdir, items);
    var twice := ApplyAll(once, targets, envdir, items);
    forall p
      ensures Lookup(twice, p) == Lookup(once, p)
    {
      if Touched(targets, envdir, items, p) {
        ApplyTouched(once, links, targets, envdir, items, p);
      } else {
        ApplyUntouched(once, targets, envdir, items, p);
      }
    }
    SameLookups(twice, once);
  }

  /** With plain variables, running the pass again over the filesystem it
      left behind changes no link and makes the same rows. */
  lemma TraverseRerun(fs: Fs, envdir: Path, items: seq<Item>)
    requires Plain(fs, envdir, items)
    ensures Traverse(fs, envdir, items).Success?
    ensures var fs1 := Traverse(fs, envdir, items).value.fs;
            && Traverse(fs1, envdir, items).Success?
            && Traverse(fs1, envdir, items).value.fs == fs1
            && Traverse(fs1, envdir, items).value.rows == Traverse(fs, envdir, items).value.rows
  {
    TraverseRows(fs, envdir, items);
    TraverseEffect(fs, envdir, items);
    var fs1 := Traverse(fs, envdir, items).value.fs;
    TraverseFrame(fs, envdir, items);
    var ps := LinkPaths(envdir, items);
    forall i | 0 <= i < |items|
      ensures items[i].path !in fs1.links
    {
      assert items[i].path !in ps;
      assert items[i].path !in fs.links - ps;
    }
    assert Plain(fs1, envdir, items);
    TraverseRows(fs1, envdir, items);
    TraverseEffect(fs1, envdir, items);
    ApplyTwice(fs.links, fs.targets, envdir, items);
  }
}

=== FILE: text.dfy ===
/** The handful of Python string and path operations the program relies on:
    `str.strip`, `str.rstrip(c)`, `str.upper`, the `in` substring test and
    `os.path.join`, each given a characterising contract. */
module Text {

  /** Python's `str.isspace` for a single character. */
  predicate IsSpace(c: char)
  {
    var n := c as int;
    || (0x09 <= n <= 0x0D) || (0x1C <= n <= 0x20)
    || n == 0x85 || n == 0xA0 || n == 0x1680
    || (0x2000 <= n <= 0x200A)
    || n == 0x2028 || n == 0x2029 || n == 0x202F || n == 0x205F || n == 0x3000
  }

  predicate StartsWith(s: string, prefix: string)
  {
    |prefix| <= |s| && s[..|prefix|] == prefix
  }

  predicate EndsWith(s: string, suffix: string)
  {
    |suffix| <= |s| && s[|s| - |suffix|..] == suffix
  }

  /** Drops leading whitespace: the result is the longest suffix of `s` that
      does not start with whitespace. */
  function TrimLeft(s: string): (r: string)
    ensures |r| <= |s| && r == s[|s| - |r|..]
    ensures AllSpace(s[..|s| - |r|])
    ensures r == [] || !IsSpace(r[0])
    decreases |s|
  {
    if |s| > 0 && IsSpace(s[0]) then TrimLeft(s[1..]) else s
  }

  /** Drops trailing whitespace: the result is the longest prefix of `s` that
      does not end with whitespace. */
  function TrimRight(s: string): (r: string)
    ensures |r| <= |s| && r == s[..|r|]
    ensures AllSpace(s[|r|..])
    ensures r == [] || !IsSpace(r[|r| - 1])
    decreases |s|
  {
    if |s| > 0 && IsSpace(s[|s| - 1]) then TrimRight(s[..|s| - 1]) else s
  }

  predicate AllSpace(s: string)
  {
    forall k :: 0 <= k < |s| ==> IsSpace(s[k])
  }

  /** `r` is what is left of `s` once a whitespace-only prefix of length `i`
      and a whitespace-only suffix are cut off. */
  predicate PaddedAt(s: string, r: string, i: int)
  {
    && 0 <= i <= |s| - |r|
    && s[i..i + |r|] == r
    && AllSpace(s[..i])
    && AllSpace(s[i + |r|..])
  }

  /** Python's `s.strip()`. */
  function Strip(s: string): (r: string)
    ensures r == [] || (!IsSpace(r[0]) && !IsSpace(r[|r| - 1]))
    ensures exists i :: PaddedAt(s, r, i)
  {
    var t := TrimLeft(s);
    var r := TrimRight(t);
    StripWitness(s, t, r);
    r
  }

  lemma StripWitness(s: string, t: string, r: string)
    requires |t| <= |s| && t == s[|s| - |t|..] && AllSpace(s[..|s| - |t|])
    requires |r| <= |t| && r == t[..|r|] && AllSpace(t[|r|..])
    ensures PaddedAt(s, r, |s| - |t|)
  {
    var i := |s| - |t|;
    assert s[i..i + |r|] == r;
    assert s[i + |r|..] == t[|r|..];
  }

  /** Stripping text that already starts and ends with non-whitespace and is
      followed only by whitespace yields exactly that text. */
  lemma {:induction false} StripPadded(core: string, pad: string)
    requires |core| > 0 && !IsSpace(core[0]) && !IsSpace(core[|core| - 1])
    requires AllSpace(pad)
    ensures Strip(core + pad) == core
  {
    var s := core + pad;
    assert TrimLeft(s) == s;
    TrimRightPadded(core, pad);
  }

  lemma {:induction false} TrimRightPadded(core: string, pad: string)
    requires |core| > 0 && !IsSpace(core[|core| - 1])
    requires AllSpace(pad)
    ensures TrimRight(core + pad) == core
    decreases |pad|
  {
    if |pad| == 0 {
      assert core + pad == core;
    } else {
      var s := core + pad;
      assert s[|s| - 1] == pad[|pad| - 1];
      assert s[..|s| - 1] == core + pad[..|pad| - 1];
      TrimRightPadded(core, pad[..|pad| - 1]);
    }
  }

  /** Python's `s.rstrip(c)` for a single character `c`. */
  function RStripChar(s: string, c: char): (r: string)
    ensures |r| <= |s| && r == s[..|r|]
    ensures forall k :: |r| <= k < |s| ==> s[k] == c
    ensures r == [] || r[|r| - 1] != c
    decreases |s|
  {
    if |s| > 0 && s[|s| - 1] == c then RStripChar(s[..|s| - 1], c) else s
  }

  /** Position of the first `c` in `s`, or `|s|` when there is none
      (`IndexOfFirst` states that no earlier position holds `c`). */
  function IndexOf(s: string, c: char): (k: nat)
    ensures k <= |s|
    ensures k < |s| ==> s[k] == c
    decreases |s|
  {
    if |s| == 0 then 0 else if s[0] == c then 0 else 1 + IndexOf(s[1..], c)
  }

  lemma {:induction false} IndexOfFirst(s: string, c: char)
    ensures c !in s[..IndexOf(s, c)]
    decreases |s|
  {
    if |s| > 0 && s[0] != c {
      IndexOfFirst(s[1..], c);
      assert s[..IndexOf(s, c)] == [s[0]] + s[1..][..IndexOf(s[1..], c)];
    }
  }

  /** The first `c` after a prefix without one is found right after it. */
  lemma {:induction false} IndexOfAt(a: string, c: char, b: string)
    requires c !in a
    ensures IndexOf(a + [c] + b, c) == |a|
    decreases |a|
  {
    var s := a + [c] + b;
    if |a| > 0 {
      assert s[1..] == a[1..] + [c] + b;
      IndexOfAt(a[1..], c, b);
    }
  }

  /** Without any `c`, the search runs off the end. */
  lemma {:induction false} IndexOfAbsent(s: string, c: char)
    requires c !in s
    ensures IndexOf(s, c) == |s|
    decreases |s|
  {
    if |s| > 0 {
      IndexOfAbsent(s[1..], c);
    }
  }

  /** Python's `sub in s` for strings. */
  predicate Contains(s: string, sub: string)
    decreases |s|
  {
    StartsWith(s, sub) || (|s| > 0 && Contains(s[1..], sub))
  }

  predicate OccursAt(s: string, sub: string, i: int)
  {
    0 <= i && i + |sub| <= |s| && s[i..i + |sub|] == sub
  }

  /** `Contains` holds exactly when `sub` occurs at some position of `s`. */
  lemma {:induction false} ContainsIff(s: string, sub: string)
    ensures Contains(s, sub) <==> exists i :: OccursAt(s, sub, i)
    decreases |s|
  {
    if StartsWith(s, sub) {
      assert OccursAt(s, sub, 0);
    }
    if |s| > 0 {
      ContainsIff(s[1..], sub);
      if exists i :: OccursAt(s, sub, i) {
        var i :| OccursAt(s, sub, i);
        if i > 0 {
          assert s[1..][i - 1..i - 1 + |sub|] == sub;
          assert OccursAt(s[1..], sub, i - 1);
        }
      }
      if Contains(s[1..], sub) {
        var i :| OccursAt(s[1..], sub, i);
        assert s[i + 1..i + 1 + |sub|] == sub;
        assert OccursAt(s, sub, i + 1);
      }
    }
  }

  /** Python's `str.upper`, restricted to ASCII letters. */
  function UpperChar(c: char): (u: char)
  {
    if 'a' <= c <= 'z' then (c as int - 32) as char else c
  }

  function Upper(s: string): (r: string)
    ensures |r| == |s|
    ensures forall i :: 0 <= i < |s| ==> r[i] == UpperChar(s[i])
  {
    if |s| == 0 then [] else [UpperChar(s[0])] + Upper(s[1..])
  }

  /** `os.path.join(a, b)` on POSIX: an absolute `b` replaces `a`; otherwise
      a single `/` separates them unless `a` is empty or already ends in one. */
  function Join(a: string, b: string): (r: string)
    ensures EndsWith(r, b)
    ensures StartsWith(b, "/") ==> r == b
    ensures !StartsWith(b, "/") ==> StartsWith(r, a) && |r| - |a| - |b| in {0, 1}
    ensures !StartsWith(b, "/") ==> (|r| == |a| + |b| <==> a == [] || EndsWith(a, "/"))
    ensures |r| == |a| + |b| + 1 ==> r[|a|] == '/'
  {
    if StartsWith(b, "/") then b
    else if a == [] || EndsWith(a, "/") then a + b
    else a + "/" + b
  }

  /** Joining onto the same directory loses nothing: two relative names give
      the same path only when they are the same name. */
  lemma JoinInjective(a: string, b1: string, b2: string)
    requires !StartsWith(b1, "/") && !StartsWith(b2, "/")
    ensures Join(a, b1) == Join(a, b2) <==> b1 == b2
  {
    var r1, r2 := Join(a, b1), Join(a, b2);
    if r1 == r2 {
      if a == [] || EndsWith(a, "/") {
        assert b1 == r1[|a|..] && b2 == r2[|a|..];
      } else {
        assert b1 == r1[|a| + 1..] && b2 == r2[|a| + 1..];
      }
    }
  }

  /** Lines joined by newlines, as a triple-quoted template writes them. */
  function Unlines(lines: seq<string>): string
    decreases |lines|
  {
    if |lines| == 0 then ""
    else if |lines| == 1 then lines[0]
    else lines[0] + "\n" + Unlines(lines[1..])
  }

  lemma UnlinesEnds(lines: seq<string>)
    requires |lines| > 0 && |lines[0]| > 0 && |lines[|lines| - 1]| > 0
    ensures |Unlines(lines)| > 0
    ensures Unlines(lines)[0] == lines[0][0]
    ensures Unlines(lines)[|Unlines(lines)| - 1] == lines[|lines| - 1][|lines[|lines| - 1]| - 1]
  {
    UnlinesLast(lines);
  }

  lemma {:induction false} UnlinesLast(lines: seq<string>)
    requires |lines| > 0 && |lines[|lines| - 1]| > 0
    ensures |Unlines(lines)| > 0
    ensures Unlines(lines)[|Unlines(lines)| - 1] == lines[|lines| - 1][|lines[|lines| - 1]| - 1]
    decreases |lines|
  {
    if |lines| > 1 {
      UnlinesLast(lines[1..]);
    }
  }

  /** A template whose first line starts, and whose last line ends, with
      something other than whitespace. */
  predicate Trimmed(lines: seq<string>)
  {
    && |lines| > 0 && |lines[0]| > 0 && |lines[|lines| - 1]| > 0
    && !IsSpace(lines[0][0]) && !IsSpace(lines[|lines| - 1][|lines[|lines| - 1]| - 1])
  }

  /** A template whose first line starts and whose last line ends with
      non-whitespace, padded with whitespace only, strips back to itself. */
  lemma StripTemplate(lines: seq<string>, pad: string)
    requires Trimmed(lines)
    requires AllSpace(pad)
    ensures Strip(Unlines(lines) + pad) == Unlines(lines)
    ensures |Unlines(lines)| > 0
  {
    UnlinesEnds(lines);
    StripPadded(Unlines(lines), pad);
  }
}

=== FILE: wrappers.dfy ===
/** Failure-carrying values used across the model. */
module Wrappers {

  datatype Option<+T> = None | Some(value: T)

  /** A computation that either yields a value or fails the way the
      program does (an exception that aborts the run). */
  datatype Result<+T, +E> = Success(value: T) | Failure(error: E)
}
